=== FILE: README.md ===
# PMTiles archive reader: a Dafny model

This project models the read side of planetiler's PMTiles archive reader
(`ReadablePmtiles`). A PMTiles archive is one file with five parts:
- a fixed 127-byte header;
- a root directory;
- a JSON metadata blob;
- a section of leaf directories;
- a section of tile data.

A directory is a list of entries sorted by tile id, where a tile id is a position on a Hilbert curve over all (z, x, y) coordinates. There are two kinds of entry:
- A **run entry** (`runLength > 0`) says that the ids `tileId .. tileId + runLength - 1` share one payload in the tile-data section.
- A **pointer entry** (`runLength == 0`) points to a leaf directory in the leaf-directories section.

The model covers:

- **Directory search** (`DirectorySearch`):
  - `findTile` is the binary search with its tie-break: an exact match wins, otherwise the predecessor entry answers if it is a pointer entry or a run that reaches the id.
  - It is proved equal to a linear-scan reference on any strictly sorted directory.
- **Single-tile lookup** (`TileLookup`):
  - `getTile` walks at most four directories (the root and three leaf levels), going through the directory cache and the tile cache.
  - It is proved to keep both caches faithful and to visit a chain of pointer-linked directories.
  - It returns the reference answer whenever the directories it visits are sorted.
- **Bulk enumeration** (`Enumeration`): `getTiles` and `getTileCoords` flatten the directory tree in directory order. Each run entry expands into `runLength` tiles that share one payload.
- **Chunk coalescing** (`Coalescing`):
  - `forEachTile(List, Consumer)` and `flushChunks` group nearby run payloads into one read while the read spans fewer than 8192 bytes, then slice each payload out of that read.
  - The model keeps the source's `Long.MAX_VALUE` / `Long.MIN_VALUE` sentinels.
  - Proved: the consumer receives exactly the tiles of `getTiles`, in the same order, with the same bytes.
  - Proved: every chunk read is tight, holds at least one entry and stays under the limit whenever it holds more than one.
  - Proved: when a whole directory fits the window, exactly one read is issued.
  - Proved: the reads are exactly the reference plan of `ChunkPlan`. A pointer entry ends a block of run entries, and each block is chunked greedily. That greedy chunking is the only valid one in which no read could have taken the first entry of the read after it.
- **Agreement of the two read paths** (`Consistency`): on a well-formed directory tree, every tile the enumeration hands out is what the lookup returns for that tile's coordinate, and every directory a lookup visits is sorted.
- **Metadata reconciliation** (`Metadata`):
  - `metadata()` maps the header's tile compression and tile type into the archive-level record.
  - It moves the reserved keys (`name`, `description`, `attribution`, `version`, `type`) out of the blob's open map.
  - Proved: the extracted values together with the residual map restore the original map exactly.

The byte source is a total function from absolute positions to bytes. A read of `length` bytes at `offset` is the window of that function, so a slice of a large read can be compared with a direct read. The codecs are given functions held in a `Codecs` record:
- gunzip;
- header and directory decoding;
- the Hilbert-curve encode and decode.

The JSON decoder is a parameter of the metadata functions.

The source has two identical private methods, `getDir` and `readDir`. Both are modelled by the single function `Archive.ReadDir`.

The doc comment of `findTile` describes the tie-break as matching "an entry's tileId + runLength". The code instead accepts the predecessor when `tileId - entry.tileId < runLength`, that is, for an id inside the run. The model follows the code.

## Model

| member | source | states |
|---|---|---|
| Archive.Open | planetiler-core/src/main/java/com/onthegomap/planetiler/pmtiles/ReadablePmtiles.java:45-48 | the opened reader keeps the given byte source and codecs; what the header depends on is stated by `Archive.HeaderFromPrefix` |
| Archive.HeaderFromPrefix | planetiler-core/src/main/java/com/onthegomap/planetiler/pmtiles/ReadablePmtiles.java:48 | the header depends only on the first 127 bytes: two sources that agree there open with the same header |
| Archive.ReadSlice | planetiler-core/src/main/java/com/onthegomap/planetiler/pmtiles/ReadablePmtiles.java:290-295 | a window sliced out of one large read equals a direct read of that window, which is why coalesced reads give the same bytes |
| PmtilesTypes.IntCast | planetiler-core/src/main/java/com/onthegomap/planetiler/pmtiles/ReadablePmtiles.java:247 | the Java `(int)` narrowing of a `long`: the result is in `int` range, agrees with the input modulo 2^32, and is the input itself when that is already in range |
| PmtilesTypes.IntCastWraps | planetiler-core/src/main/java/com/onthegomap/planetiler/pmtiles/ReadablePmtiles.java:297 | the narrowing wraps: `Integer.MAX_VALUE + 1` becomes `Integer.MIN_VALUE`, so an id past the `int` range decodes a negative id |
| Archive.ReadDir | planetiler-core/src/main/java/com/onthegomap/planetiler/pmtiles/ReadablePmtiles.java:221-231 | `readDir` (and its twin `getDir`, lines 102-112): read the range, gunzip it when the internal compression is GZIP, and parse the entries; a reference definition whose locality is stated by `Archive.ReadDirLocal` |
| Archive.ReadDirLocal | planetiler-core/src/main/java/com/onthegomap/planetiler/pmtiles/ReadablePmtiles.java:221-231 | a directory read depends only on the bytes of its range: two sources that agree there give the same entries |
| Archive.RunTiles | planetiler-core/src/main/java/com/onthegomap/planetiler/pmtiles/ReadablePmtiles.java:246-248 | a run entry yields exactly `runLength` tiles, all sharing the same payload; tile `i` has the decoded coordinate of id `(int)(tileId + i)`, which is `tileId + i` whenever the run stays within `int` range |
| Cache.Get | planetiler-core/src/main/java/com/onthegomap/planetiler/pmtiles/ReadablePmtiles.java:49-56 | a cache lookup returns the loader's value for the key, whether it hits or misses; the cache stays a faithful memo of the loader and keeps its keys |
| Cache.Evict | planetiler-core/src/main/java/com/onthegomap/planetiler/pmtiles/ReadablePmtiles.java:49-56 | any eviction (the weight bound is not modelled) removes exactly the evicted keys and leaves the memo faithful, so lookups never depend on what was evicted |
| DirectorySearch.LastAtOrBelow | planetiler-core/src/main/java/com/onthegomap/planetiler/pmtiles/ReadablePmtiles.java:96 | the reference scan lands on an entry at or below the id, and every later entry is above it (-1 when there is none) |
| DirectorySearch.FindTile | planetiler-core/src/main/java/com/onthegomap/planetiler/pmtiles/ReadablePmtiles.java:82-100 | the binary search needs no precondition and only ever returns an entry of the directory; on a strictly sorted directory it returns exactly the linear-scan reference answer |
| DirectorySearch.PredecessorUnique | planetiler-core/src/main/java/com/onthegomap/planetiler/pmtiles/ReadablePmtiles.java:85-96 | on a sorted directory the index that separates ids at or below the target from those above it is unique, and it is where the scan lands |
| DirectorySearch.FindExact | planetiler-core/src/main/java/com/onthegomap/planetiler/pmtiles/ReadablePmtiles.java:92-93 | an entry whose id equals the target is always the answer, whatever its kind |
| DirectorySearch.FindCharacterization | planetiler-core/src/main/java/com/onthegomap/planetiler/pmtiles/ReadablePmtiles.java:96-99 | on a sorted directory, entry `e` is the answer if and only if `e` is the predecessor of the id and is either a pointer entry or a run that contains the id |
| DirectorySearch.FindAbsent | planetiler-core/src/main/java/com/onthegomap/planetiler/pmtiles/ReadablePmtiles.java:96-99 | there is no answer in three cases: the directory is empty, the id is below the first entry, or the predecessor is a run that ends at or before the id |
| TileLookup.GetTile | planetiler-core/src/main/java/com/onthegomap/planetiler/pmtiles/ReadablePmtiles.java:115-144 | both caches stay faithful; the walk visits 1 to 4 directories, the first being the root and each next one the leaf of a pointer entry of the previous; a returned payload belongs to a run entry of the last directory; with sorted directories the result is the reference depth-4 lookup of the encoded coordinate |
| TileLookup.ScenarioLookups | planetiler-core/src/main/java/com/onthegomap/planetiler/pmtiles/ReadablePmtiles.java:115-144 | in a root-plus-leaf archive holding the run (5, 100, 50, 3), ids 5, 6 and 7 resolve to the 50 bytes at tile-data offset 100, and ids 4 and 8 are absent |
| Enumeration.Tiles | planetiler-core/src/main/java/com/onthegomap/planetiler/pmtiles/ReadablePmtiles.java:240-251 | `getTiles`: the directory-order flattening of the tree, a run entry expanding into its tiles and a pointer entry into its leaf directory's tiles; a reference definition whose properties are stated by `Enumeration.TilesAppend`, `Enumeration.TilesSplit`, `Enumeration.RunTileEnumerated`, `Consistency.TileResolves` and `Coalescing.ForEachTile` |
| Enumeration.TileCoords | planetiler-core/src/main/java/com/onthegomap/planetiler/pmtiles/ReadablePmtiles.java:234-238 | `getTileCoords`: the same flattening producing coordinates only; a reference definition whose agreement with `getTiles` is stated by `Enumeration.CoordsMatchTiles` |
| Enumeration.TilesAppend | planetiler-core/src/main/java/com/onthegomap/planetiler/pmtiles/ReadablePmtiles.java:240-251 | enumerating a concatenation of entries gives the enumerations of the parts, one after the other |
| Enumeration.TilesSplit | planetiler-core/src/main/java/com/onthegomap/planetiler/pmtiles/ReadablePmtiles.java:240-251 | the tiles of entry `k` sit between the tiles of the entries before it and those after it |
| Enumeration.RunTileEnumerated | planetiler-core/src/main/java/com/onthegomap/planetiler/pmtiles/ReadablePmtiles.java:244-248 | every id of every run entry of a directory is enumerated, carrying that run's payload |
| Enumeration.CoordsMatchTiles | planetiler-core/src/main/java/com/onthegomap/planetiler/pmtiles/ReadablePmtiles.java:234-238 | `getTileCoords` yields exactly the coordinates of `getTiles`, position by position |
| Enumeration.WalkStep | planetiler-core/src/main/java/com/onthegomap/planetiler/pmtiles/ReadablePmtiles.java:241-243 | walking one more entry extends the enumeration by that entry's tiles: a leaf walk for a pointer entry, the run for a run entry |
| ChunkPlan.SpanCovers | planetiler-core/src/main/java/com/onthegomap/planetiler/pmtiles/ReadablePmtiles.java:270-276 | the min-start/max-end span the loop keeps covers every pending payload and is never inverted |
| ChunkPlan.SpanMonotone | planetiler-core/src/main/java/com/onthegomap/planetiler/pmtiles/ReadablePmtiles.java:272-273 | the span of a prefix of entries lies inside the span of all of them |
| Coalescing.SliceEntry | planetiler-core/src/main/java/com/onthegomap/planetiler/pmtiles/ReadablePmtiles.java:293-295 | an entry's bytes taken from the chunk read equal its payload read directly, whether it is the whole chunk or a copied slice |
| Coalescing.RepeatRun | planetiler-core/src/main/java/com/onthegomap/planetiler/pmtiles/ReadablePmtiles.java:296-298 | the consumer receives the run's tiles, one per id in ascending order, all with the same bytes |
| Coalescing.FlushChunks | planetiler-core/src/main/java/com/onthegomap/planetiler/pmtiles/ReadablePmtiles.java:288-302 | an empty pending list does nothing; otherwise exactly one read of `[chunkStart, chunkEnd)` is issued; the tiles are those of direct per-entry reads, in order |
| Coalescing.AddRunEntry | planetiler-core/src/main/java/com/onthegomap/planetiler/pmtiles/ReadablePmtiles.java:269-283 | a run entry joins the pending chunk while the widened span stays under 8192 bytes, issuing nothing; otherwise the whole pending chunk is flushed as one read of its exact span (nothing when none is pending) and the chunk restarts at the entry alone, with the entry's payload span; no tile is lost or reordered and every read is valid |
| Coalescing.FlushAndDescend | planetiler-core/src/main/java/com/onthegomap/planetiler/pmtiles/ReadablePmtiles.java:263-268 | a pointer entry first flushes the pending chunk as one read of its exact span, issued before any read of the leaf (no read when nothing is pending), then hands out its leaf directory's enumeration; the reads are exactly that flush followed by the reference reads of the leaf directory (`ChunkPlan.Chunked`) |
| ChunkPlan.GreedyIsChunking | planetiler-core/src/main/java/com/onthegomap/planetiler/pmtiles/ReadablePmtiles.java:269-283 | the greedy chunking of a block of run entries is a chunking: every read is valid, the reads hold the block's entries in order, and no read could have taken the first entry of the read after it |
| ChunkPlan.GreedyUnique | planetiler-core/src/main/java/com/onthegomap/planetiler/pmtiles/ReadablePmtiles.java:274-281 | that characterisation has one solution: any valid chunking of a block in which no read could take the next read's first entry is the greedy one, so joining while the widened span is under 8192 bytes and restarting otherwise fixes the reads |
| ChunkPlan.BlocksSound | planetiler-core/src/main/java/com/onthegomap/planetiler/pmtiles/ReadablePmtiles.java:262-268 | the blocks a walk cuts at its pointer entries (the leaf directory's blocks following) are non-empty, hold only run entries, and together, in order, are exactly the run entries the enumeration visits |
| ChunkPlan.ChunkedSound | planetiler-core/src/main/java/com/onthegomap/planetiler/pmtiles/ReadablePmtiles.java:258-286 | the reference reads of a directory tree are valid, hold every run entry of the enumeration once and in order, and each block's reads are its greedy chunking |
| Coalescing.PlanRunStep | planetiler-core/src/main/java/com/onthegomap/planetiler/pmtiles/ReadablePmtiles.java:269-283 | a run entry's step follows the reference plan of the open block: joining widens the pending read as the greedy plan does, and a restart issues the pending read and opens the next, as the greedy plan does |
| Coalescing.PlanPointerStep | planetiler-core/src/main/java/com/onthegomap/planetiler/pmtiles/ReadablePmtiles.java:263-268 | a pointer entry's step follows the reference plan: the pending read, then the leaf's reads, is the plan with the open block closed and the leaf's blocks after it |
| Coalescing.VisitPointer | planetiler-core/src/main/java/com/onthegomap/planetiler/pmtiles/ReadablePmtiles.java:263-268 | a pointer entry keeps both loop invariants: the tiles and reads so far account for the entries seen, and the reads issued plus the pending read are the reference plan of those entries |
| Coalescing.VisitRun | planetiler-core/src/main/java/com/onthegomap/planetiler/pmtiles/ReadablePmtiles.java:269-283 | a run entry keeps both loop invariants, whichever way the join-or-restart goes |
| Coalescing.VisitEntry | planetiler-core/src/main/java/com/onthegomap/planetiler/pmtiles/ReadablePmtiles.java:262-284 | each loop iteration keeps the walk invariant (tiles handed out plus pending tiles form the enumeration of the entries seen; reads issued plus pending entries form their run entries) and the plan invariant (reads issued plus the pending read are the greedy chunking of the blocks seen so far) |
| Coalescing.ForEachTile | planetiler-core/src/main/java/com/onthegomap/planetiler/pmtiles/ReadablePmtiles.java:258-286 | the consumer receives exactly `getTiles` of the directory; every chunk read is valid (non-empty, tight span, under 8192 bytes when it holds several entries); the reads cover every run entry once, in order; a directory of runs that fits the window costs one read; the reads are exactly `ChunkPlan.Chunked`, the greedy chunking of each block of run entries between pointer entries, so no read holds entries from both sides of a pointer entry and no other split of a block is issued |
| Coalescing.ForEachArchiveTile | planetiler-core/src/main/java/com/onthegomap/planetiler/pmtiles/ReadablePmtiles.java:253-256 | the walk from the root hands out the archive's tile enumeration, and its coordinates are those of `getAllTileCoords`; the reads are exactly the reference reads of the root directory |
| Metadata.ArchiveCompression | planetiler-core/src/main/java/com/onthegomap/planetiler/pmtiles/ReadablePmtiles.java:161-165 | the compression switch is total and one-to-one: mapping back gives the header's compression |
| Metadata.ArchiveCompressionOnto | planetiler-core/src/main/java/com/onthegomap/planetiler/pmtiles/ReadablePmtiles.java:161-165 | every archive-level compression, `UNKNWON` included, is reached |
| Metadata.FormatOf | planetiler-core/src/main/java/com/onthegomap/planetiler/pmtiles/ReadablePmtiles.java:167-170 | a format is present if and only if the tile type is MVT |
| Metadata.Take | planetiler-core/src/main/java/com/onthegomap/planetiler/pmtiles/ReadablePmtiles.java:176-180 | removing a key yields a value if and only if the key was present, and then it yields the stored value |
| Metadata.Reconcile | planetiler-core/src/main/java/com/onthegomap/planetiler/pmtiles/ReadablePmtiles.java:172-190 | the residual map is the blob's map minus the reserved keys, with values unchanged; each reserved field is present exactly when its key was; the vector layers pass through; compression, format, bounds, center and zooms come from the header |
| Metadata.ReconcileRestores | planetiler-core/src/main/java/com/onthegomap/planetiler/pmtiles/ReadablePmtiles.java:174-188 | putting the extracted reserved values back into the residual map gives exactly the blob's original map |
| Metadata.ReconcileResidual | planetiler-core/src/main/java/com/onthegomap/planetiler/pmtiles/ReadablePmtiles.java:174-188 | the residual map holds no reserved key, so reconciling it again extracts nothing and leaves it unchanged |
| Metadata.JsonMetadataOf | planetiler-core/src/main/java/com/onthegomap/planetiler/pmtiles/ReadablePmtiles.java:150-156 | `getJsonMetadata`: read the metadata range, gunzip it when the internal compression is GZIP, and decode it; a reference definition whose locality is stated by `Metadata.MetadataLocal` |
| Metadata.MetadataOf | planetiler-core/src/main/java/com/onthegomap/planetiler/pmtiles/ReadablePmtiles.java:158-194 | `metadata()` fails exactly when decoding the blob fails; on success the residual map has no reserved key, restores to the blob's map, and the compression matches the header |
| Metadata.MetadataLocal | planetiler-core/src/main/java/com/onthegomap/planetiler/pmtiles/ReadablePmtiles.java:150-156 | `getJsonMetadata` and `metadata()` read nothing but the metadata range: two sources that agree on it give the same blob and the same record |
| Metadata.ScenarioMetadata | planetiler-core/src/main/java/com/onthegomap/planetiler/pmtiles/ReadablePmtiles.java:174-188 | the blob {"name": "Test", "custom_key": "v"} with a layer schema yields name "Test", the residual map {"custom_key": "v"} and the schema in its own field |
| Consistency.WellFormedSorted | planetiler-core/src/main/java/com/onthegomap/planetiler/pmtiles/ReadablePmtiles.java:82-100 | a well-formed directory is strictly sorted with its ids in range, so the binary search agrees with the reference on it |
| Consistency.PointerLeafWellFormed | planetiler-core/src/main/java/com/onthegomap/planetiler/pmtiles/ReadablePmtiles.java:127-129 | every pointer entry of a well-formed directory leads to a well-formed leaf directory one level down |
| Consistency.VisitedWellFormed | planetiler-core/src/main/java/com/onthegomap/planetiler/pmtiles/ReadablePmtiles.java:120-137 | every directory a lookup walk visits in a well-formed tree is well-formed, and the walk never goes deeper than the tree |
| Consistency.VisitedSorted | planetiler-core/src/main/java/com/onthegomap/planetiler/pmtiles/ReadablePmtiles.java:120-137 | on a well-formed archive every directory `getTile` visits is sorted, which discharges the hypothesis of `TileLookup.GetTile` |
| Consistency.ResolveInPrefix | planetiler-core/src/main/java/com/onthegomap/planetiler/pmtiles/ReadablePmtiles.java:96-99 | resolving an id below a directory's last entry does not depend on that entry |
| Consistency.TileResolves | planetiler-core/src/main/java/com/onthegomap/planetiler/pmtiles/ReadablePmtiles.java:240-251 | every tile enumerated from a well-formed directory has its id in the directory's range, and resolving that id returns the tile's bytes |
| Consistency.EnumeratedTilesFound | planetiler-core/src/main/java/com/onthegomap/planetiler/pmtiles/ReadablePmtiles.java:115-144 | `getTiles` and `getTile` agree: on a well-formed archive at most three leaf levels deep, looking up the coordinate of any enumerated tile returns that tile's bytes |

## Left out

- I/O failures are not modelled. `DataProvider.getBytes`, the `FileChannel` reader, `close`, and the conversion of `IOException` and `ExecutionException` into unchecked exceptions are all outside the model. A read always returns the window of the byte source. The exception is the JSON metadata decoder, whose failure is modelled as `None`.
- Cache weighing, the one-gigabyte weight bound, eviction order and concurrent single-flight loading (Guava) are not modelled. A cache is a map that stays consistent with its loader, and eviction is any removal of keys.
- The codecs are taken as given functions: gunzip, `Header.fromBytes`, `directoryFromBytes`, `JsonMetadata.fromBytes` and `TileCoord` Hilbert encode/decode. These classes are not part of this model. The agreement theorem assumes that decode-then-encode returns the id.
- The Java `int` casts of `rootDirLength` and `jsonMetadataLength`, and of chunk lengths and slice starts in `flushChunks`, are not modelled: lengths are unbounded naturals. The `(int)` narrowing of tile ids before Hilbert decoding is modelled (`PmtilesTypes.IntCast`). `Enumeration.Enumerable` (through `Enumeration.RunFits`) is a requires of `Enumeration.Tiles`, `Enumeration.TileCoords`, `Coalescing.ForEachTile` and `Coalescing.ForEachArchiveTile`: it keeps tile ids within `int` and payload ends within `long`, so on those members the cast never wraps. The wrap-around is visible only in `Archive.RunTiles`, `Coalescing.RepeatRun` and `Coalescing.FlushChunks`.
- Enumeration.Tiles: the source recurses into leaf directories without a depth bound. The model bounds the recursion with a ghost `fuel` and requires the tree to be enumerable within it, so a cyclic directory tree (on which the source would not terminate) is not modelled.
- TileLookup.GetTile: the result is stated equal to the reference lookup only when every visited directory is sorted. On unsorted directories the binary search is only shown to return an entry of the directory, because the source promises nothing more there.
- The order of the residual metadata map (`LinkedHashMap` insertion order) is not modelled. The map is a `map<string, string>`.
- The integer widths of the header's zoom fields, and the `double` conversion of the center zoom, are not modelled. They are naturals in the model.
- `StreamIterator`, `getAllTiles` and `getAllTileCoords` only wrap the enumeration in an iterator; their content is `Enumeration.Tiles` and `Enumeration.TileCoords` of the root directory. `getHeader` only returns the header. `main` is a benchmark and is left out.

=== FILE: archive.dfy ===
/** The reader's view of an opened archive: the byte source, the codecs it
    delegates to, and the header read once at open time. */
module Archive {
  import opened PmtilesTypes

  /** Codecs and the space-filling curve, taken as given total functions. */
  datatype Codecs = Codecs(
    gunzip: Bytes -> Bytes,
    parseHeader: Bytes -> Header,
    parseDirectory: Bytes -> seq<Entry>,
    encode: TileCoord -> nat,
    decode: int -> TileCoord)

  /** `source(p)` is the byte at absolute position `p` of the byte source. */
  datatype Reader = Reader(source: nat -> byte, codecs: Codecs, header: Header)

  /** The bytes a read of `length` bytes at `offset` returns. */
  function Read(source: nat -> byte, offset: nat, length: nat): (r: Bytes)
    ensures |r| == length
    ensures forall i :: 0 <= i < length ==> r[i] == source(offset + i)
  {
    seq(length, i requires 0 <= i < length => source(offset + i))
  }

  function ReadRange(source: nat -> byte, range: Range): Bytes {
    Read(source, range.offset, range.length)
  }

  /** Slicing a window out of one large read gives the bytes of a direct
      read of that window: what makes coalesced reads safe. */
  lemma ReadSlice(source: nat -> byte, offset: nat, length: nat, start: nat, len: nat)
    requires start + len <= length
    ensures Read(source, offset, length)[start..start + len] == Read(source, offset + start, len)
  {
  }

  /** Opening an archive reads and parses the fixed-length header block. */
  function Open(source: nat -> byte, codecs: Codecs): (r: Reader)
    ensures r.source == source && r.codecs == codecs
  {
    Reader(source, codecs, codecs.parseHeader(Read(source, 0, HeaderLength)))
  }

  /** Two sources that agree on the header block open with the same header. */
  lemma HeaderFromPrefix(source: nat -> byte, other: nat -> byte, codecs: Codecs)
    requires forall p :: 0 <= p < HeaderLength ==> other(p) == source(p)
    ensures Open(other, codecs).header == Open(source, codecs).header
  {
    assert Read(other, 0, HeaderLength) == Read(source, 0, HeaderLength);
  }

  /** Directory and metadata blobs are gunzipped exactly when the header's
      internal compression is GZIP. */
  function Inflate(r: Reader, raw: Bytes): Bytes {
    if r.header.internalCompression == Gzip then r.codecs.gunzip(raw) else raw
  }

  /** Fetch, inflate and parse the directory stored at `range`. */
  function ReadDir(r: Reader, range: Range): seq<Entry> {
    r.codecs.parseDirectory(Inflate(r, ReadRange(r.source, range)))
  }

  /** A directory read depends on the bytes of its range and nothing else. */
  lemma ReadDirLocal(r: Reader, other: Reader, range: Range)
    requires other.header == r.header && other.codecs == r.codecs
    requires forall p :: range.offset <= p < range.offset + range.length ==> other.source(p) == r.source(p)
    ensures ReadDir(other, range) == ReadDir(r, range)
  {
    assert ReadRange(other.source, range) == ReadRange(r.source, range);
  }

  function RootRange(r: Reader): Range {
    Range(r.header.rootDirOffset, r.header.rootDirLength)
  }

  function RootDir(r: Reader): seq<Entry> {
    ReadDir(r, RootRange(r))
  }

  /** Where a pointer entry's leaf directory lives. */
  function LeafRange(r: Reader, e: Entry): Range {
    Range(r.header.leafDirectoriesOffset + e.offset, e.length)
  }

  function LeafDir(r: Reader, e: Entry): seq<Entry> {
    ReadDir(r, LeafRange(r, e))
  }

  /** Where a run entry's payload lives. */
  function DataRange(r: Reader, e: Entry): Range {
    Range(r.header.tileDataOffset + e.offset, e.length)
  }

  function Payload(r: Reader, e: Entry): Bytes {
    ReadRange(r.source, DataRange(r, e))
  }

  /** The `runLength` tiles of a run entry, all carrying `data`: tile `i`
      decodes the id `tileId + i` narrowed to an `int`, as the source does. */
  function RunTiles(r: Reader, e: Entry, data: Bytes): (ts: seq<Tile>)
    ensures |ts| == e.runLength
    ensures forall i :: 0 <= i < e.runLength ==> ts[i] == Tile(r.codecs.decode(IntCast(e.tileId + i)), data)
    ensures e.tileId + e.runLength <= IntMax + 1 ==>
              forall i :: 0 <= i < e.runLength ==> ts[i].coord == r.codecs.decode(e.tileId + i)
  {
    seq(e.runLength, i requires 0 <= i < e.runLength => Tile(r.codecs.decode(IntCast(e.tileId + i)), data))
  }
}

=== FILE: cache.dfy ===
/** The two loading caches reduced to what a caller can observe: a finite
    memo of a loader function. Weighing, eviction order and single-flight
    loading are not modelled; eviction is any removal of keys. */
module Cache {

  /** Every resident value is what the loader returns for its key. */
  ghost predicate Consistent<K, V>(c: map<K, V>, load: K -> V) {
    forall k :: k in c ==> c[k] == load(k)
  }

  /** A lookup returns the loader's value for the key, loading and storing it
      on a miss; the cache stays a faithful memo and keeps what it had. */
  function Get<K(==), V>(c: map<K, V>, load: K -> V, k: K): (res: (V, map<K, V>))
    requires Consistent(c, load)
    ensures res.0 == load(k)
    ensures Consistent(res.1, load)
    ensures k in res.1 && c.Keys <= res.1.Keys
  {
    if k in c then (c[k], c) else (load(k), c[k := load(k)])
  }

  /** Evicting any set of keys keeps the memo faithful, so results never
      depend on what was evicted between calls. */
  function Evict<K(==), V>(c: map<K, V>, keys: set<K>, ghost load: K -> V): (c': map<K, V>)
    requires Consistent(c, load)
    ensures Consistent(c', load)
    ensures c'.Keys == c.Keys - keys
  {
    c - keys
  }
}

=== FILE: chunk_plan.dfy ===
/** The chunk reads of `forEachTile` as data: the span of pending run
    entries, what makes a read valid, and the reference plan of which reads
    a walk over a directory tree issues. */
module ChunkPlan {
  import opened PmtilesTypes
  import opened Archive
  import opened Enumeration

  /** A chunk may grow while its byte span stays below this many bytes. */
  const ChunkLimit: int := 8192

  function Min(a: int, b: int): int { if a <= b then a else b }

  function Max(a: int, b: int): int { if a >= b then a else b }

  /** Where an entry's payload starts and ends in the file. */
  function DataStart(r: Reader, e: Entry): nat {
    DataRange(r, e).offset
  }

  function DataEnd(r: Reader, e: Entry): nat {
    DataStart(r, e) + DataRange(r, e).length
  }

  /** The chunk start the source keeps for pending entries `es`: the least
      payload start, `Long.MAX_VALUE` while nothing is pending. */
  function SpanStart(r: Reader, es: seq<Entry>): int {
    if |es| == 0 then LongMax else Min(SpanStart(r, es[..|es| - 1]), DataStart(r, es[|es| - 1]))
  }

  /** The chunk end: the greatest payload end, `Long.MIN_VALUE` while empty. */
  function SpanEnd(r: Reader, es: seq<Entry>): int {
    if |es| == 0 then LongMin else Max(SpanEnd(r, es[..|es| - 1]), DataEnd(r, es[|es| - 1]))
  }

  /** Pending chunk entries are run entries whose ids and payload fit. */
  predicate AllRunsFit(r: Reader, es: seq<Entry>) {
    forall k :: 0 <= k < |es| ==> es[k].runLength > 0 && RunFits(r, es[k])
  }

  /** Every payload of `es` lies inside `[chunkStart, chunkEnd)`. */
  predicate Covers(r: Reader, es: seq<Entry>, chunkStart: int, chunkEnd: int) {
    && 0 <= chunkStart
    && forall k :: 0 <= k < |es| ==> chunkStart <= DataStart(r, es[k]) && DataEnd(r, es[k]) <= chunkEnd
  }

  /** One read issued by a flush: the entries sliced from `[start, end)`. */
  datatype ChunkRead = ChunkRead(entries: seq<Entry>, start: int, end: int)

  /** A flushed chunk holds at least one run entry, its span is exactly the
      union of its entries' payload ranges, and it stays under the limit
      whenever it holds more than one entry. */
  predicate ValidRead(r: Reader, c: ChunkRead) {
    && |c.entries| >= 1
    && AllRunsFit(r, c.entries)
    && c.start == SpanStart(r, c.entries)
    && c.end == SpanEnd(r, c.entries)
    && (|c.entries| >= 2 ==> c.end - c.start < ChunkLimit)
  }

  predicate AllValid(r: Reader, issued: seq<ChunkRead>) {
    forall k :: 0 <= k < |issued| ==> ValidRead(r, issued[k])
  }

  lemma AllValidAppend(r: Reader, a: seq<ChunkRead>, b: seq<ChunkRead>)
    requires AllValid(r, a) && AllValid(r, b)
    ensures AllValid(r, a + b)
  {
  }

  function Flatten(issued: seq<ChunkRead>): seq<Entry> {
    if |issued| == 0 then [] else Flatten(issued[..|issued| - 1]) + issued[|issued| - 1].entries
  }

  lemma {:induction false} FlattenAppend(a: seq<ChunkRead>, b: seq<ChunkRead>)
    ensures Flatten(a + b) == Flatten(a) + Flatten(b)
    decreases |b|
  {
    if |b| == 0 {
      assert a + b == a;
    } else {
      assert (a + b)[..|a + b| - 1] == a + b[..|b| - 1];
      FlattenAppend(a, b[..|b| - 1]);
    }
  }

  /** The tight span of fitting run entries covers each of their payloads. */
  lemma {:induction false} SpanCovers(r: Reader, es: seq<Entry>)
    requires |es| >= 1 && AllRunsFit(r, es)
    ensures Covers(r, es, SpanStart(r, es), SpanEnd(r, es))
    ensures SpanStart(r, es) <= SpanEnd(r, es)
  {
    var p := es[..|es| - 1];
    if |p| >= 1 {
      assert forall k :: 0 <= k < |p| ==> p[k] == es[k];
      SpanCovers(r, p);
    }
  }

  /** Pending entries seen so far never span more than all the entries. */
  lemma {:induction false} SpanMonotone(r: Reader, es: seq<Entry>, k: nat)
    requires k <= |es|
    ensures SpanStart(r, es[..k]) >= SpanStart(r, es) && SpanEnd(r, es[..k]) <= SpanEnd(r, es)
    decreases |es|
  {
    if k < |es| {
      var p := es[..|es| - 1];
      assert p[..k] == es[..k];
      SpanMonotone(r, p, k);
    } else {
      assert es[..k] == es;
    }
  }

  /** The read of exactly the entries `es`, over their tight span. */
  function ReadOf(r: Reader, es: seq<Entry>): ChunkRead {
    ChunkRead(es, SpanStart(r, es), SpanEnd(r, es))
  }

  /** `es` may share one read: its span stays under the limit. */
  predicate Fits(r: Reader, es: seq<Entry>) {
    SpanEnd(r, es) - SpanStart(r, es) < ChunkLimit
  }

  /** The greedy chunking of a block of consecutive run entries, left to
      right: each entry joins the last read while the widened span fits and
      otherwise opens a new read. */
  function Greedy(r: Reader, block: seq<Entry>): (plan: seq<ChunkRead>)
    ensures |plan| == 0 <==> |block| == 0
  {
    if |block| == 0 then []
    else
      var g := Greedy(r, block[..|block| - 1]);
      var e := block[|block| - 1];
      if |g| > 0 && Fits(r, g[|g| - 1].entries + [e]) then g[..|g| - 1] + [ReadOf(r, g[|g| - 1].entries + [e])]
      else g + [ReadOf(r, [e])]
  }

  /** No read of `plan` could have taken the first entry of the read after
      it. */
  predicate NoneJoinable(r: Reader, plan: seq<ChunkRead>)
    requires AllValid(r, plan)
  {
    forall k :: 0 < k < |plan| ==> !Fits(r, plan[k - 1].entries + [plan[k].entries[0]])
  }

  /** `plan` chunks `block` as a greedy walk must: every read is valid, the
      reads hold the block's entries in order, and no read could have taken
      the first entry of the read after it. */
  predicate GreedyChunking(r: Reader, block: seq<Entry>, plan: seq<ChunkRead>) {
    && AllValid(r, plan)
    && Flatten(plan) == block
    && NoneJoinable(r, plan)
  }

  /** Splitting off the last read of a sequence of reads. */
  lemma FlattenSnoc(plan: seq<ChunkRead>, c: ChunkRead)
    ensures Flatten(plan + [c]) == Flatten(plan) + c.entries
  {
    assert (plan + [c])[..|plan|] == plan;
  }

  /** The span of a one-entry read is that entry's payload range. */
  lemma SpanSingle(r: Reader, e: Entry)
    ensures SpanStart(r, [e]) == Min(LongMax, DataStart(r, e)) && SpanEnd(r, [e]) == Max(LongMin, DataEnd(r, e))
  {
    assert [e][..0] == [];
  }

  /** Widening a span by one entry. */
  lemma SpanSnoc(r: Reader, es: seq<Entry>, e: Entry)
    ensures SpanStart(r, es + [e]) == Min(SpanStart(r, es), DataStart(r, e))
    ensures SpanEnd(r, es + [e]) == Max(SpanEnd(r, es), DataEnd(r, e))
  {
    assert (es + [e])[..|es|] == es;
  }

  /** Appending a read to a chunking keeps the reads valid and joinable-free
      when the new read is valid and its first entry does not fit the last
      read. */
  lemma ChunkingSnoc(r: Reader, block: seq<Entry>, plan: seq<ChunkRead>, c: ChunkRead)
    requires GreedyChunking(r, block, plan) && ValidRead(r, c)
    requires |plan| > 0 ==> !Fits(r, plan[|plan| - 1].entries + [c.entries[0]])
    ensures GreedyChunking(r, block + c.entries, plan + [c])
  {
    var p := plan + [c];
    FlattenSnoc(plan, c);
    assert forall k :: 0 <= k < |plan| ==> p[k] == plan[k];
    assert AllValid(r, p);
    forall k | 0 < k < |p|
      ensures !Fits(r, p[k - 1].entries + [p[k].entries[0]])
    {
      if k < |plan| {
        assert p[k - 1] == plan[k - 1] && p[k] == plan[k];
      }
    }
  }

  /** Dropping the last read of a chunking leaves a chunking of the rest. */
  lemma ChunkingUnsnoc(r: Reader, block: seq<Entry>, plan: seq<ChunkRead>, c: ChunkRead)
    requires GreedyChunking(r, block, plan + [c])
    ensures ValidRead(r, c)
    ensures GreedyChunking(r, Flatten(plan), plan)
    ensures block == Flatten(plan) + c.entries
    ensures |plan| > 0 ==> !Fits(r, plan[|plan| - 1].entries + [c.entries[0]])
  {
    var p := plan + [c];
    FlattenSnoc(plan, c);
    assert p[|plan|] == c;
    assert forall k :: 0 <= k < |plan| ==> p[k] == plan[k];
    forall k | 0 < k < |plan|
      ensures !Fits(r, plan[k - 1].entries + [plan[k].entries[0]])
    {
      assert p[k - 1] == plan[k - 1] && p[k] == plan[k];
    }
    if |plan| > 0 {
      assert p[|plan| - 1] == plan[|plan| - 1];
    }
  }

  /** A one-entry read of a fitting run entry is valid. */
  lemma ValidSingle(r: Reader, e: Entry)
    requires e.runLength > 0 && RunFits(r, e)
    ensures ValidRead(r, ReadOf(r, [e]))
  {
  }

  /** A read widened by an entry, still under the limit, is valid. */
  lemma ValidJoin(r: Reader, es: seq<Entry>, e: Entry)
    requires |es| >= 1 && AllRunsFit(r, es) && e.runLength > 0 && RunFits(r, e) && Fits(r, es + [e])
    ensures ValidRead(r, ReadOf(r, es + [e]))
  {
    assert (es + [e])[0] == es[0];
  }

  /** The greedy plan at an entry that does not fit the last read: the
      entry opens a new read. */
  lemma GreedyOpens(r: Reader, b: seq<Entry>, e: Entry)
    requires Greedy(r, b) == [] || !Fits(r, Greedy(r, b)[|Greedy(r, b)| - 1].entries + [e])
    ensures Greedy(r, b + [e]) == Greedy(r, b) + [ReadOf(r, [e])]
  {
    assert (b + [e])[..|b|] == b;
  }

  /** The greedy plan at an entry that fits the last read: the read widens. */
  lemma GreedyJoins(r: Reader, b: seq<Entry>, e: Entry)
    requires Greedy(r, b) != [] && Fits(r, Greedy(r, b)[|Greedy(r, b)| - 1].entries + [e])
    ensures var g := Greedy(r, b);
      Greedy(r, b + [e]) == g[..|g| - 1] + [ReadOf(r, g[|g| - 1].entries + [e])]
  {
    assert (b + [e])[..|b|] == b;
  }
  /** The greedy plan meets the characterisation. */
  lemma {:induction false} GreedyIsChunking(r: Reader, block: seq<Entry>)
    requires AllRunsFit(r, block)
    ensures GreedyChunking(r, block, Greedy(r, block))
    decreases |block|
  {
    if |block| > 0 {
      var b := block[..|block| - 1];
      var e := block[|block| - 1];
      assert block == b + [e];
      assert AllRunsFit(r, b);
      GreedyIsChunking(r, b);
      var g := Greedy(r, b);
      if |g| > 0 && Fits(r, g[|g| - 1].entries + [e]) {
        ChunkingJoinStep(r, b, e);
      } else {
        ChunkingOpenStep(r, b, e);
      }
    }
  }

  /** One greedy step that widens the last read keeps the characterisation. */
  lemma {:induction false} ChunkingJoinStep(r: Reader, b: seq<Entry>, e: Entry)
    requires GreedyChunking(r, b, Greedy(r, b)) && e.runLength > 0 && RunFits(r, e)
    requires Greedy(r, b) != [] && Fits(r, Greedy(r, b)[|Greedy(r, b)| - 1].entries + [e])
    ensures GreedyChunking(r, b + [e], Greedy(r, b + [e]))
  {
    var g := Greedy(r, b);
    var last := g[|g| - 1];
    var pre := g[..|g| - 1];
    assert g == pre + [last];
    ChunkingUnsnoc(r, b, pre, last);
    ValidJoin(r, last.entries, e);
    var c := ReadOf(r, last.entries + [e]);
    assert c.entries[0] == last.entries[0];
    ChunkingSnoc(r, Flatten(pre), pre, c);
    GreedyJoins(r, b, e);
  }

  /** One greedy step that opens a read keeps the characterisation. */
  lemma {:induction false} ChunkingOpenStep(r: Reader, b: seq<Entry>, e: Entry)
    requires GreedyChunking(r, b, Greedy(r, b)) && e.runLength > 0 && RunFits(r, e)
    requires Greedy(r, b) == [] || !Fits(r, Greedy(r, b)[|Greedy(r, b)| - 1].entries + [e])
    ensures GreedyChunking(r, b + [e], Greedy(r, b + [e]))
  {
    ValidSingle(r, e);
    ChunkingSnoc(r, b, Greedy(r, b), ReadOf(r, [e]));
    GreedyOpens(r, b, e);
  }



  /** Taking the last entry `e` off the last read of a chunking, when that
      read holds several entries, leaves a chunking of the shorter block;
      `e` fitted the shortened read. */
  lemma {:induction false} ChunkingShrink(r: Reader, pre: seq<ChunkRead>, last: ChunkRead, front: seq<Entry>, e: Entry)
    requires GreedyChunking(r, Flatten(pre), pre) && ValidRead(r, last)
    requires last.entries == front + [e] && |front| >= 1
    requires |pre| > 0 ==> !Fits(r, pre[|pre| - 1].entries + [front[0]])
    ensures GreedyChunking(r, Flatten(pre) + front, pre + [ReadOf(r, front)])
    ensures Fits(r, front + [e]) && last == ReadOf(r, front + [e])
  {
    SpanSnoc(r, front, e);
    forall k | 0 <= k < |front|
      ensures front[k].runLength > 0 && RunFits(r, front[k])
    {
      assert last.entries[k] == front[k];
    }
    ChunkingSnoc(r, Flatten(pre), pre, ReadOf(r, front));
  }

  /** When the greedy plan of `b` ends with the read of `front` and the
      entry `e` fits that read, the plan of `b + [e]` ends with the widened
      read instead. */
  lemma UniqueJoins(r: Reader, b: seq<Entry>, pre: seq<ChunkRead>, front: seq<Entry>, e: Entry)
    requires pre + [ReadOf(r, front)] == Greedy(r, b) && Fits(r, front + [e])
    ensures pre + [ReadOf(r, front + [e])] == Greedy(r, b + [e])
  {
    var g := Greedy(r, b);
    assert g[|g| - 1] == ReadOf(r, front) && g[..|g| - 1] == pre;
    GreedyJoins(r, b, e);
  }

  /** The last read of a chunking, widened by `e`, is the greedy plan's last
      read when the shortened chunking is the greedy plan of the shorter
      block. */
  lemma {:induction false} UniqueWidens(r: Reader, pre: seq<ChunkRead>, last: ChunkRead, front: seq<Entry>, e: Entry)
    requires last.entries == front + [e]
    requires pre + [ReadOf(r, front)] == Greedy(r, Flatten(pre) + front)
    requires Fits(r, front + [e]) && last == ReadOf(r, front + [e])
    ensures pre + [last] == Greedy(r, Flatten(pre) + last.entries)
  {
    assert Flatten(pre) + last.entries == (Flatten(pre) + front) + [e];
    UniqueJoins(r, Flatten(pre) + front, pre, front, e);
  }

  /** The characterisation leaves no choice: any chunking that meets it is
      the greedy plan. */
  lemma {:induction false} GreedyUnique(r: Reader, block: seq<Entry>, plan: seq<ChunkRead>)
    requires GreedyChunking(r, block, plan)
    ensures plan == Greedy(r, block)
    decreases |block|, 1
  {
    if |plan| == 0 {
      assert Flatten(plan) == [];
    } else {
      var pre := plan[..|plan| - 1];
      var last := plan[|plan| - 1];
      assert plan == pre + [last];
      ChunkingUnsnoc(r, block, pre, last);
      if |last.entries| == 1 {
        UniqueOpenCase(r, pre, last);
      } else {
        UniqueWidenCase(r, pre, last);
      }
    }
  }

  /** Uniqueness when the last read holds one entry: that entry did not fit
      the read before it, so the greedy walk opened a read for it too. */
  lemma {:induction false} UniqueOpenCase(r: Reader, pre: seq<ChunkRead>, last: ChunkRead)
    requires GreedyChunking(r, Flatten(pre), pre) && ValidRead(r, last) && |last.entries| == 1
    requires |pre| > 0 ==> !Fits(r, pre[|pre| - 1].entries + [last.entries[0]])
    ensures pre + [last] == Greedy(r, Flatten(pre) + last.entries)
    decreases |Flatten(pre)| + 1, 0
  {
    GreedyUnique(r, Flatten(pre), pre);
    var e := last.entries[0];
    assert last.entries == [e];
    GreedyOpens(r, Flatten(pre), e);
  }

  /** Uniqueness when the last read holds several entries: without its last
      entry it is the greedy plan's last read, which that entry then
      widens. */
  lemma {:induction false} UniqueWidenCase(r: Reader, pre: seq<ChunkRead>, last: ChunkRead)
    requires GreedyChunking(r, Flatten(pre), pre) && ValidRead(r, last) && |last.entries| >= 2
    requires |pre| > 0 ==> !Fits(r, pre[|pre| - 1].entries + [last.entries[0]])
    ensures pre + [last] == Greedy(r, Flatten(pre) + last.entries)
    decreases |Flatten(pre)| + |last.entries|, 0
  {
    var n := |last.entries|;
    var front := last.entries[..n - 1];
    var e := last.entries[n - 1];
    assert last.entries == front + [e] && front[0] == last.entries[0];
    ChunkingShrink(r, pre, last, front, e);
    var shorter := Flatten(pre) + front;
    assert |shorter| < |Flatten(pre)| + n;
    GreedyUnique(r, shorter, pre + [ReadOf(r, front)]);
    UniqueWidens(r, pre, last, front, e);
  }

  /** The reads of a sequence of blocks: each block chunked on its own. */
  function GreedyAll(r: Reader, blocks: seq<seq<Entry>>): seq<ChunkRead> {
    if |blocks| == 0 then [] else GreedyAll(r, blocks[..|blocks| - 1]) + Greedy(r, blocks[|blocks| - 1])
  }

  lemma {:induction false} GreedyAllAppend(r: Reader, a: seq<seq<Entry>>, b: seq<seq<Entry>>)
    ensures GreedyAll(r, a + b) == GreedyAll(r, a) + GreedyAll(r, b)
    decreases |b|
  {
    if |b| == 0 {
      assert a + b == a;
    } else {
      assert (a + b)[..|a + b| - 1] == a + b[..|b| - 1];
      GreedyAllAppend(r, a, b[..|b| - 1]);
    }
  }

  /** The blocks of a walk so far: `closed` are the blocks already ended
      (by a pointer entry, or inside a leaf directory), in walk order, and
      `open` the run entries after the last pointer entry. */
  datatype Split = Split(closed: seq<seq<Entry>>, open: seq<Entry>)

  /** Ending a block: an empty block is dropped. */
  function Close(open: seq<Entry>): seq<seq<Entry>> {
    if open == [] then [] else [open]
  }

  function SplitOf(r: Reader, dir: seq<Entry>, fuel: nat): Split
    requires Enumerable(r, dir, fuel)
    decreases fuel, |dir|, 1
  {
    if |dir| == 0 then Split([], [])
    else
      EnumerablePrefix(r, dir, fuel);
      var s := SplitOf(r, dir[..|dir| - 1], fuel);
      var e := dir[|dir| - 1];
      if e.runLength == 0 then Split(s.closed + Close(s.open) + Blocks(r, LeafDir(r, e), fuel - 1), [])
      else Split(s.closed, s.open + [e])
  }

  /** The maximal blocks of consecutive run entries of one directory, in walk
      order: a pointer entry ends the block before it, and its leaf
      directory contributes its own blocks. */
  function Blocks(r: Reader, dir: seq<Entry>, fuel: nat): seq<seq<Entry>>
    requires Enumerable(r, dir, fuel)
    decreases fuel, |dir|, 2
  {
    var s := SplitOf(r, dir, fuel);
    s.closed + Close(s.open)
  }

  /** The reads `forEachTile` issues over `dir`: each block chunked greedily. */
  function Chunked(r: Reader, dir: seq<Entry>, fuel: nat): seq<ChunkRead>
    requires Enumerable(r, dir, fuel)
  {
    GreedyAll(r, Blocks(r, dir, fuel))
  }

  /** One step of the walk: how the entry at `i` changes the blocks. */
  lemma SplitStep(r: Reader, dir: seq<Entry>, i: int, fuel: nat)
    requires Enumerable(r, dir, fuel) && 0 <= i < |dir|
    ensures Enumerable(r, dir[..i], fuel) && Enumerable(r, dir[..i + 1], fuel)
    ensures EntryEnumerable(r, dir[i], fuel)
    ensures var s := SplitOf(r, dir[..i], fuel);
      SplitOf(r, dir[..i + 1], fuel) ==
        if dir[i].runLength == 0 then Split(s.closed + Close(s.open) + Blocks(r, LeafDir(r, dir[i]), fuel - 1), [])
        else Split(s.closed, s.open + [dir[i]])
  {
    EnumerablePrefixes(r, dir, i + 1, fuel);
    assert dir[..i + 1][..i] == dir[..i];
  }

  /** The entries of a sequence of blocks, in order. */
  function Concat(blocks: seq<seq<Entry>>): seq<Entry> {
    if |blocks| == 0 then [] else Concat(blocks[..|blocks| - 1]) + blocks[|blocks| - 1]
  }

  lemma {:induction false} ConcatAppend(a: seq<seq<Entry>>, b: seq<seq<Entry>>)
    ensures Concat(a + b) == Concat(a) + Concat(b)
    decreases |b|
  {
    if |b| == 0 {
      assert a + b == a;
    } else {
      assert (a + b)[..|a + b| - 1] == a + b[..|b| - 1];
      ConcatAppend(a, b[..|b| - 1]);
    }
  }

  /** Every block is a non-empty run of fitting run entries. */
  predicate RunBlocks(r: Reader, blocks: seq<seq<Entry>>) {
    forall k :: 0 <= k < |blocks| ==> |blocks[k]| >= 1 && AllRunsFit(r, blocks[k])
  }

  lemma RunBlocksAppend(r: Reader, a: seq<seq<Entry>>, b: seq<seq<Entry>>)
    requires RunBlocks(r, a) && RunBlocks(r, b)
    ensures RunBlocks(r, a + b)
  {
  }

  /** Closing a block of fitting run entries adds a run block (or nothing)
      holding exactly those entries. */
  lemma CloseSound(r: Reader, open: seq<Entry>)
    requires AllRunsFit(r, open)
    ensures RunBlocks(r, Close(open)) && Concat(Close(open)) == open
  {
    if open != [] {
      assert [open][..0] == [];
    }
  }

  /** A pointer entry's step keeps the partition: the open block is closed
      and the leaf's blocks follow. */
  lemma PointerKeepsPartition(r: Reader, closed: seq<seq<Entry>>, open: seq<Entry>, leaf: seq<seq<Entry>>,
                              before: seq<Entry>, below: seq<Entry>)
    requires RunBlocks(r, closed) && AllRunsFit(r, open) && Concat(closed) + open == before
    requires RunBlocks(r, leaf) && Concat(leaf) == below
    ensures RunBlocks(r, closed + Close(open) + leaf)
    ensures Concat(closed + Close(open) + leaf) + [] == before + below
  {
    CloseSound(r, open);
    RunBlocksAppend(r, closed, Close(open));
    RunBlocksAppend(r, closed + Close(open), leaf);
    ConcatAppend(closed, Close(open));
    ConcatAppend(closed + Close(open), leaf);
  }

  /** A run entry's step keeps the partition: the entry joins the open block. */
  lemma RunKeepsPartition(r: Reader, closed: seq<seq<Entry>>, open: seq<Entry>, before: seq<Entry>, e: Entry)
    requires AllRunsFit(r, open) && Concat(closed) + open == before
    requires e.runLength > 0 && RunFits(r, e)
    ensures AllRunsFit(r, open + [e]) && Concat(closed) + (open + [e]) == before + [e]
  {
  }

  /** The split of a walk partitions its run entries: the closed blocks are
      run blocks, the open block holds only fitting run entries, and
      together, in order, they are the run entries the walk enumerates. */
  lemma {:induction false} SplitSound(r: Reader, dir: seq<Entry>, fuel: nat)
    requires Enumerable(r, dir, fuel)
    ensures var s := SplitOf(r, dir, fuel);
      RunBlocks(r, s.closed) && AllRunsFit(r, s.open) && Concat(s.closed) + s.open == RunEntries(r, dir, fuel)
    decreases fuel, |dir|, 1
  {
    if |dir| > 0 {
      EnumerablePrefix(r, dir, fuel);
      var p := dir[..|dir| - 1];
      var e := dir[|dir| - 1];
      SplitSound(r, p, fuel);
      var s := SplitOf(r, p, fuel);
      if e.runLength == 0 {
        BlocksSound(r, LeafDir(r, e), fuel - 1);
        PointerKeepsPartition(r, s.closed, s.open, Blocks(r, LeafDir(r, e), fuel - 1),
                              RunEntries(r, p, fuel), RunEntries(r, LeafDir(r, e), fuel - 1));
      } else {
        RunKeepsPartition(r, s.closed, s.open, RunEntries(r, p, fuel), e);
      }
    }
  }

  /** The blocks of a directory tree partition its run entries into run
      blocks: no block holds a pointer entry, and in order they are the run
      entries the walk enumerates. */
  lemma {:induction false} BlocksSound(r: Reader, dir: seq<Entry>, fuel: nat)
    requires Enumerable(r, dir, fuel)
    ensures RunBlocks(r, Blocks(r, dir, fuel))
    ensures Concat(Blocks(r, dir, fuel)) == RunEntries(r, dir, fuel)
    decreases fuel, |dir|, 2
  {
    SplitSound(r, dir, fuel);
    var s := SplitOf(r, dir, fuel);
    CloseSound(r, s.open);
    RunBlocksAppend(r, s.closed, Close(s.open));
    ConcatAppend(s.closed, Close(s.open));
  }

  /** Chunking run blocks one by one gives valid reads holding the blocks'
      entries in order. */
  lemma {:induction false} GreedyAllSound(r: Reader, blocks: seq<seq<Entry>>)
    requires RunBlocks(r, blocks)
    ensures AllValid(r, GreedyAll(r, blocks)) && Flatten(GreedyAll(r, blocks)) == Concat(blocks)
    decreases |blocks|
  {
    if |blocks| > 0 {
      var front := blocks[..|blocks| - 1];
      var b := blocks[|blocks| - 1];
      assert RunBlocks(r, front);
      GreedyAllSound(r, front);
      GreedyIsChunking(r, b);
      AllValidAppend(r, GreedyAll(r, front), Greedy(r, b));
      FlattenAppend(GreedyAll(r, front), Greedy(r, b));
    }
  }

  /** The reference reads of a directory tree are valid and, in order, hold
      each run entry of the enumeration once; each block's reads are its
      unique greedy chunking. */
  lemma ChunkedSound(r: Reader, dir: seq<Entry>, fuel: nat)
    requires Enumerable(r, dir, fuel)
    ensures AllValid(r, Chunked(r, dir, fuel))
    ensures Flatten(Chunked(r, dir, fuel)) == RunEntries(r, dir, fuel)
    ensures forall b :: b in Blocks(r, dir, fuel) ==> |b| >= 1 && GreedyChunking(r, b, Greedy(r, b))
  {
    BlocksSound(r, dir, fuel);
    GreedyAllSound(r, Blocks(r, dir, fuel));
    forall b | b in Blocks(r, dir, fuel)
      ensures |b| >= 1 && GreedyChunking(r, b, Greedy(r, b))
    {
      GreedyIsChunking(r, b);
    }
  }
}

=== FILE: coalescing.dfy ===
/** `forEachTile`: the bulk walk that coalesces nearby run-entry payloads
    into single chunk reads and slices each payload out of its chunk. */
module Coalescing {
  import opened PmtilesTypes
  import opened Archive
  import opened Enumeration
  import opened ChunkPlan

  /** The tiles of run entries when each payload is read on its own, as
      `getTiles` reads them. */
  function DirectTiles(r: Reader, es: seq<Entry>): seq<Tile> {
    if |es| == 0 then []
    else DirectTiles(r, es[..|es| - 1]) + RunTiles(r, es[|es| - 1], Payload(r, es[|es| - 1]))
  }

  /** One entry's payload cut out of the chunk read at `chunkStart`: the
      whole chunk when the entry spans it, otherwise the entry's slice. */
  method SliceEntry(r: Reader, bytes: Bytes, chunkStart: nat, length: nat, entry: Entry) returns (data: Bytes)
    requires bytes == Read(r.source, chunkStart, length)
    requires chunkStart <= DataStart(r, entry) && DataEnd(r, entry) <= chunkStart + length
    ensures data == Payload(r, entry)
  {
    var start: nat := DataStart(r, entry) - chunkStart;
    ReadSlice(r.source, chunkStart, length, start, entry.length);
    data := if start == 0 && length == entry.length then bytes else bytes[start..start + entry.length];
  }

  /** The consumer is called once per id of the run, all with the same bytes. */
  method RepeatRun(r: Reader, entry: Entry, data: Bytes) returns (tiles: seq<Tile>)
    ensures tiles == RunTiles(r, entry, data)
  {
    tiles := [];
    for i := 0 to entry.runLength
      invariant tiles == RunTiles(r, entry, data)[..i]
    {
      tiles := tiles + [Tile(r.codecs.decode(IntCast(entry.tileId + i)), data)];
    }
  }

  /** `flushChunks`: if anything is pending, read the chunk once and hand
      out each entry's slice of it `runLength` times. The tiles equal those
      of direct per-entry reads. The source then clears the pending list;
      the callers here start a new one. */
  method FlushChunks(r: Reader, entries: seq<Entry>, chunkStart: int, chunkEnd: int)
    returns (tiles: seq<Tile>, issued: seq<ChunkRead>)
    requires entries != [] ==> Covers(r, entries, chunkStart, chunkEnd)
    ensures entries == [] ==> tiles == [] && issued == []
    ensures entries != [] ==> issued == [ChunkRead(entries, chunkStart, chunkEnd)]
    ensures tiles == DirectTiles(r, entries)
  {
    tiles, issued := [], [];
    if entries != [] {
      assert DataStart(r, entries[0]) <= DataEnd(r, entries[0]);
      var length: nat := chunkEnd - chunkStart;
      var bytes := Read(r.source, chunkStart, length);
      issued := [ChunkRead(entries, chunkStart, chunkEnd)];
      for j := 0 to |entries|
        invariant tiles == DirectTiles(r, entries[..j])
      {
        var data := SliceEntry(r, bytes, chunkStart, length, entries[j]);
        var run := RepeatRun(r, entries[j], data);
        tiles := tiles + run;
        assert entries[..j + 1][..j] == entries[..j];
      }
      assert entries[..|entries|] == entries;
    }
  }

  /** The state the source keeps between entries: the pending entries and a
      chunk span that is exactly theirs, under the limit once two are pending. */
  predicate PendingOk(r: Reader, chunks: seq<Entry>, chunkStart: int, chunkEnd: int) {
    && AllRunsFit(r, chunks)
    && chunkStart == SpanStart(r, chunks)
    && chunkEnd == SpanEnd(r, chunks)
    && (|chunks| >= 2 ==> chunkEnd - chunkStart < ChunkLimit)
  }

  /** Appending a fitting run entry to the pending list widens the span by
      that entry's payload range and appends its tiles. */
  lemma PendingSnoc(r: Reader, chunks: seq<Entry>, e: Entry)
    requires AllRunsFit(r, chunks) && e.runLength > 0 && RunFits(r, e)
    ensures AllRunsFit(r, chunks + [e])
    ensures SpanStart(r, chunks + [e]) == Min(SpanStart(r, chunks), DataStart(r, e))
    ensures SpanEnd(r, chunks + [e]) == Max(SpanEnd(r, chunks), DataEnd(r, e))
    ensures DirectTiles(r, chunks + [e]) == DirectTiles(r, chunks) + RunTiles(r, e, Payload(r, e))
    ensures SpanStart(r, [e]) == DataStart(r, e) && SpanEnd(r, [e]) == DataEnd(r, e)
  {
  }

  lemma PendingExtend(r: Reader, chunks: seq<Entry>, chunkStart: int, chunkEnd: int, e: Entry)
    requires PendingOk(r, chunks, chunkStart, chunkEnd) && e.runLength > 0 && RunFits(r, e)
    requires Max(chunkEnd, DataEnd(r, e)) - Min(chunkStart, DataStart(r, e)) < ChunkLimit
    ensures PendingOk(r, chunks + [e], Min(chunkStart, DataStart(r, e)), Max(chunkEnd, DataEnd(r, e)))
  {
  }

  lemma PendingSingle(r: Reader, e: Entry)
    requires e.runLength > 0 && RunFits(r, e)
    ensures PendingOk(r, [e], DataStart(r, e), DataEnd(r, e))
    ensures DirectTiles(r, [e]) == RunTiles(r, e, Payload(r, e))
  {
  }

  /** What a flush of a well-kept pending list records is a valid chunk
      read of exactly the pending entries (or nothing when none are pending). */
  lemma FlushRecorded(r: Reader, chunks: seq<Entry>, chunkStart: int, chunkEnd: int, issued: seq<ChunkRead>)
    requires PendingOk(r, chunks, chunkStart, chunkEnd)
    requires chunks == [] ==> issued == []
    requires chunks != [] ==> issued == [ChunkRead(chunks, chunkStart, chunkEnd)]
    ensures AllValid(r, issued)
    ensures Flatten(issued) == chunks
  {
  }

  /** The run-entry step of `forEachTile`: widen the chunk to take the entry
      if the widened span stays under the limit, otherwise flush the chunk and
      start a new one at the entry. Either way nothing is lost or reordered. */
  method AddRunEntry(r: Reader, chunks: seq<Entry>, chunkStart: int, chunkEnd: int, entry: Entry)
    returns (chunks': seq<Entry>, chunkStart': int, chunkEnd': int, flushed: seq<Tile>, issued: seq<ChunkRead>)
    requires PendingOk(r, chunks, chunkStart, chunkEnd)
    requires entry.runLength > 0 && RunFits(r, entry)
    ensures PendingOk(r, chunks', chunkStart', chunkEnd')
    ensures flushed + DirectTiles(r, chunks') == DirectTiles(r, chunks) + RunTiles(r, entry, Payload(r, entry))
    ensures AllValid(r, issued)
    ensures Flatten(issued) + chunks' == chunks + [entry]
    ensures Max(chunkEnd, DataEnd(r, entry)) - Min(chunkStart, DataStart(r, entry)) < ChunkLimit ==>
              issued == [] && chunks' == chunks + [entry]
    ensures Max(chunkEnd, DataEnd(r, entry)) - Min(chunkStart, DataStart(r, entry)) >= ChunkLimit ==>
              && chunks' == [entry] && chunkStart' == DataStart(r, entry) && chunkEnd' == DataEnd(r, entry)
              && issued == (if chunks == [] then [] else [ChunkRead(chunks, chunkStart, chunkEnd)])
  {
    var start := r.header.tileDataOffset + entry.offset;
    var end := start + entry.length;
    var newStartMaybe := Min(chunkStart, start);
    var newEndMaybe := Max(chunkEnd, end);
    assert start == DataStart(r, entry) && end == DataEnd(r, entry);
    PendingSnoc(r, chunks, entry);
    if newEndMaybe - newStartMaybe < ChunkLimit {
      chunkStart', chunkEnd' := newStartMaybe, newEndMaybe;
      chunks', flushed, issued := chunks + [entry], [], [];
      PendingExtend(r, chunks, chunkStart, chunkEnd, entry);
      assert flushed + DirectTiles(r, chunks') == DirectTiles(r, chunks');
    } else {
      if chunks != [] {
        SpanCovers(r, chunks);
      }
      flushed, issued := FlushChunks(r, chunks, chunkStart, chunkEnd);
      FlushRecorded(r, chunks, chunkStart, chunkEnd, issued);
      chunkStart', chunkEnd' := start, end;
      chunks' := [entry];
      PendingSingle(r, entry);
    }
  }

  /** The read a flush of the pending entries issues: none when nothing is
      pending, otherwise one read over their tight span. */
  function PendingRead(r: Reader, chunks: seq<Entry>): seq<ChunkRead> {
    if chunks == [] then [] else [ReadOf(r, chunks)]
  }

  /** Issued reads, then a flush and the reads after it, regrouped. */
  lemma Regroup<T>(issued: seq<T>, pending: seq<T>, planned: seq<T>, after: seq<T>)
    requires issued + pending == planned
    ensures issued + (pending + after) == planned + after
  {
  }

  /** Reads issued so far plus the pending read against a plan: the last
      read of the plan is the pending one and the rest were issued. */
  lemma SnocMatch<T>(x: seq<T>, a: T, y: seq<T>, g: seq<T>)
    requires x + [a] == y + g && |g| > 0
    ensures a == g[|g| - 1] && x == y + g[..|g| - 1]
  {
    assert (x + [a])[|x|] == a;
    assert x == (y + g)[..|x|];
    assert y + g == (y + g[..|g| - 1]) + [g[|g| - 1]];
  }

  /** The first entry of a block opens the first read of its plan. */
  lemma PlanOpen(r: Reader, done: seq<ChunkRead>, issued: seq<ChunkRead>, e: Entry)
    requires issued == done
    ensures issued + PendingRead(r, [e]) == done + Greedy(r, [e])
  {
    assert [e][..0] == [];
  }

  /** An entry that fits the pending read widens it, as the plan does. */
  lemma PlanJoin(r: Reader, done: seq<ChunkRead>, open: seq<Entry>, issued: seq<ChunkRead>, chunks: seq<Entry>, e: Entry)
    requires chunks != [] && open != [] && Fits(r, chunks + [e])
    requires issued + [ReadOf(r, chunks)] == done + Greedy(r, open)
    ensures issued + PendingRead(r, chunks + [e]) == done + Greedy(r, open + [e])
  {
    var g := Greedy(r, open);
    SnocMatch(issued, ReadOf(r, chunks), done, g);
    GreedyJoins(r, open, e);
    var w := ReadOf(r, chunks + [e]);
    assert PendingRead(r, chunks + [e]) == [w];
    assert done + (g[..|g| - 1] + [w]) == (done + g[..|g| - 1]) + [w];
  }

  /** An entry that does not fit issues the pending read and opens the next
      one, as the plan does. */
  lemma PlanRestart(r: Reader, done: seq<ChunkRead>, open: seq<Entry>, issued: seq<ChunkRead>, chunks: seq<Entry>, e: Entry)
    requires chunks != [] && open != [] && !Fits(r, chunks + [e])
    requires issued + [ReadOf(r, chunks)] == done + Greedy(r, open)
    ensures issued + [ReadOf(r, chunks)] + PendingRead(r, [e]) == done + Greedy(r, open + [e])
  {
    var g := Greedy(r, open);
    SnocMatch(issued, ReadOf(r, chunks), done, g);
    GreedyOpens(r, open, e);
    assert PendingRead(r, [e]) == [ReadOf(r, [e])];
    assert done + (g + [ReadOf(r, [e])]) == (done + g) + [ReadOf(r, [e])];
  }

  /** A run entry's step follows the greedy plan of the open block: it joins
      the pending read when the plan widens that read, and otherwise the
      pending read is issued and the entry starts the next one. */
  lemma PlanRunStep(r: Reader, done: seq<ChunkRead>, open: seq<Entry>, issued: seq<ChunkRead>,
                    chunks: seq<Entry>, chunkStart: int, chunkEnd: int, e: Entry,
                    chunks': seq<Entry>, flushIssued: seq<ChunkRead>)
    requires PendingOk(r, chunks, chunkStart, chunkEnd)
    requires (open == []) == (chunks == [])
    requires issued + PendingRead(r, chunks) == done + Greedy(r, open)
    requires Max(chunkEnd, DataEnd(r, e)) - Min(chunkStart, DataStart(r, e)) < ChunkLimit ==>
               flushIssued == [] && chunks' == chunks + [e]
    requires Max(chunkEnd, DataEnd(r, e)) - Min(chunkStart, DataStart(r, e)) >= ChunkLimit ==>
               chunks' == [e] && flushIssued == (if chunks == [] then [] else [ChunkRead(chunks, chunkStart, chunkEnd)])
    ensures chunks' != []
    ensures (issued + flushIssued) + PendingRead(r, chunks') == done + Greedy(r, open + [e])
  {
    SpanSnoc(r, chunks, e);
    var fits := Max(chunkEnd, DataEnd(r, e)) - Min(chunkStart, DataStart(r, e)) < ChunkLimit;
    if chunks == [] {
      assert chunks' == [e] && flushIssued == [];
      assert Greedy(r, open) == [];
      assert issued + [] == issued && done + [] == done;
      assert open + [e] == [e];
      PlanOpen(r, done, issued, e);
    } else {
      assert fits == Fits(r, chunks + [e]);
      assert PendingRead(r, chunks) == [ReadOf(r, chunks)];
      if fits {
        assert issued + flushIssued == issued;
        PlanJoin(r, done, open, issued, chunks, e);
      } else {
        assert flushIssued == [ReadOf(r, chunks)];
        PlanRestart(r, done, open, issued, chunks, e);
      }
    }
  }

  /** Closing the open block appends its greedy reads. */
  lemma PlanClose(r: Reader, closed: seq<seq<Entry>>, open: seq<Entry>)
    ensures GreedyAll(r, closed + Close(open)) == GreedyAll(r, closed) + Greedy(r, open)
  {
    if open == [] {
      assert closed + Close(open) == closed;
    } else {
      assert (closed + [open])[..|closed|] == closed;
    }
  }

  /** A pointer entry's step: the pending read, then the leaf's reads, which
      is the plan with the open block closed and the leaf's blocks after it. */
  lemma PlanPointerStep(r: Reader, closed: seq<seq<Entry>>, open: seq<Entry>, issued: seq<ChunkRead>,
                        chunks: seq<Entry>, leafBlocks: seq<seq<Entry>>, flushIssued: seq<ChunkRead>)
    requires issued + PendingRead(r, chunks) == GreedyAll(r, closed) + Greedy(r, open)
    requires flushIssued == PendingRead(r, chunks) + GreedyAll(r, leafBlocks)
    ensures issued + flushIssued == GreedyAll(r, closed + Close(open) + leafBlocks)
  {
    GreedyAllAppend(r, closed + Close(open), leafBlocks);
    PlanClose(r, closed, open);
    Regroup(issued, PendingRead(r, chunks), GreedyAll(r, closed) + Greedy(r, open), GreedyAll(r, leafBlocks));
  }

  /** The pointer-entry step of `forEachTile`: flush what is pending, then
      walk the leaf directory (the caller then resets the chunk span). */
  method FlushAndDescend(r: Reader, chunks: seq<Entry>, chunkStart: int, chunkEnd: int, entry: Entry, ghost fuel: nat)
    returns (tiles: seq<Tile>, issued: seq<ChunkRead>)
    requires PendingOk(r, chunks, chunkStart, chunkEnd)
    requires entry.runLength == 0 && EntryEnumerable(r, entry, fuel)
    ensures tiles == DirectTiles(r, chunks) + EntryTiles(r, entry, fuel)
    ensures AllValid(r, issued)
    ensures Flatten(issued) == chunks + EntryRunEntries(r, entry, fuel)
    ensures chunks == [] ==> Flatten(issued) == EntryRunEntries(r, entry, fuel)
    ensures chunks != [] ==> |issued| >= 1 && issued[0] == ChunkRead(chunks, chunkStart, chunkEnd)
    ensures chunks != [] ==> Flatten(issued[1..]) == EntryRunEntries(r, entry, fuel)
    ensures issued == PendingRead(r, chunks) + Chunked(r, LeafDir(r, entry), fuel - 1)
    decreases fuel, 0
  {
    if chunks != [] {
      SpanCovers(r, chunks);
    }
    var flushed, flushIssued := FlushChunks(r, chunks, chunkStart, chunkEnd);
    FlushRecorded(r, chunks, chunkStart, chunkEnd, flushIssued);
    var sub, subIssued := ForEachTile(r, LeafDir(r, entry), fuel - 1);
    tiles := flushed + sub;
    issued := flushIssued + subIssued;
    AllValidAppend(r, flushIssued, subIssued);
    FlattenAppend(flushIssued, subIssued);
  }

  /** The directory is all run entries whose payloads fit one chunk. */
  predicate Windowed(r: Reader, entries: seq<Entry>) {
    && |entries| >= 1
    && (forall k :: 0 <= k < |entries| ==> entries[k].runLength > 0)
    && SpanEnd(r, entries) - SpanStart(r, entries) < ChunkLimit
  }

  /** Emitting `flushed` and keeping `pending'` pending accounts for what was
      pending plus the new `step`. */
  lemma StepCompose<T>(done: seq<T>, pending: seq<T>, flushed: seq<T>, pending': seq<T>, step: seq<T>)
    requires flushed + pending' == pending + step
    ensures (done + flushed) + pending' == (done + pending) + step
  {
    assert (done + flushed) + pending' == done + (flushed + pending');
    assert (done + pending) + step == done + (pending + step);
  }

  /** What the walk over `entries` has achieved after its first `i` entries:
      the tiles handed out plus those still pending are the enumeration of
      that prefix, and so are the entries read plus those pending. */
  predicate WalkInvariant(r: Reader, entries: seq<Entry>, i: int, fuel: nat, tiles: seq<Tile>, issued: seq<ChunkRead>,
                          chunks: seq<Entry>, chunkStart: int, chunkEnd: int)
    requires Enumerable(r, entries, fuel) && 0 <= i <= |entries|
  {
    EnumerablePrefixes(r, entries, i, fuel);
    && PendingOk(r, chunks, chunkStart, chunkEnd)
    && tiles + DirectTiles(r, chunks) == Tiles(r, entries[..i], fuel)
    && AllValid(r, issued)
    && Flatten(issued) + chunks == RunEntries(r, entries[..i], fuel)
    && (Windowed(r, entries) ==> issued == [] && chunks == entries[..i])
  }

  /** The reads of the walk so far follow the greedy plan of its blocks: the
      reads issued plus the pending read are the closed blocks' reads
      followed by the open block's, and something is pending exactly when
      the open block is not empty. */
  predicate PlanInvariant(r: Reader, entries: seq<Entry>, i: int, fuel: nat, issued: seq<ChunkRead>, chunks: seq<Entry>)
    requires Enumerable(r, entries, fuel) && 0 <= i <= |entries|
  {
    EnumerablePrefixes(r, entries, i, fuel);
    var s := SplitOf(r, entries[..i], fuel);
    && (s.open == []) == (chunks == [])
    && issued + PendingRead(r, chunks) == GreedyAll(r, s.closed) + Greedy(r, s.open)
  }

  /** After a pointer entry the walk still follows the plan: the pending
      read and the leaf's reads were issued, and nothing is pending. */
  lemma PlanAfterPointer(r: Reader, entries: seq<Entry>, i: int, fuel: nat, issued: seq<ChunkRead>, chunks: seq<Entry>,
                         flushIssued: seq<ChunkRead>)
    requires Enumerable(r, entries, fuel) && 0 <= i < |entries| && entries[i].runLength == 0
    requires PlanInvariant(r, entries, i, fuel, issued, chunks)
    requires EntryEnumerable(r, entries[i], fuel)
    requires flushIssued == PendingRead(r, chunks) + Chunked(r, LeafDir(r, entries[i]), fuel - 1)
    ensures PlanInvariant(r, entries, i + 1, fuel, issued + flushIssued, [])
  {
    SplitStep(r, entries, i, fuel);
    var s := SplitOf(r, entries[..i], fuel);
    PlanPointerStep(r, s.closed, s.open, issued, chunks, Blocks(r, LeafDir(r, entries[i]), fuel - 1), flushIssued);
  }

  /** After a run entry the walk still follows the plan, whichever way
      `AddRunEntry` went. */
  lemma PlanAfterRun(r: Reader, entries: seq<Entry>, i: int, fuel: nat, issued: seq<ChunkRead>,
                     chunks: seq<Entry>, chunkStart: int, chunkEnd: int, chunks': seq<Entry>, flushIssued: seq<ChunkRead>)
    requires Enumerable(r, entries, fuel) && 0 <= i < |entries| && entries[i].runLength > 0
    requires PlanInvariant(r, entries, i, fuel, issued, chunks)
    requires PendingOk(r, chunks, chunkStart, chunkEnd)
    requires Max(chunkEnd, DataEnd(r, entries[i])) - Min(chunkStart, DataStart(r, entries[i])) < ChunkLimit ==>
               flushIssued == [] && chunks' == chunks + [entries[i]]
    requires Max(chunkEnd, DataEnd(r, entries[i])) - Min(chunkStart, DataStart(r, entries[i])) >= ChunkLimit ==>
               chunks' == [entries[i]] && flushIssued == (if chunks == [] then [] else [ChunkRead(chunks, chunkStart, chunkEnd)])
    ensures PlanInvariant(r, entries, i + 1, fuel, issued + flushIssued, chunks')
  {
    SplitStep(r, entries, i, fuel);
    var s := SplitOf(r, entries[..i], fuel);
    PlanRunStep(r, GreedyAll(r, s.closed), s.open, issued, chunks, chunkStart, chunkEnd, entries[i], chunks', flushIssued);
  }

  /** A pointer entry of the loop of `forEachTile`: flush, descend, and
      reset the pending chunk. */
  method VisitPointer(r: Reader, entries: seq<Entry>, i: int, ghost fuel: nat, tiles: seq<Tile>, issued: seq<ChunkRead>,
                      chunks: seq<Entry>, chunkStart: int, chunkEnd: int)
    returns (tiles': seq<Tile>, issued': seq<ChunkRead>, chunks': seq<Entry>, chunkStart': int, chunkEnd': int)
    requires Enumerable(r, entries, fuel) && 0 <= i < |entries| && entries[i].runLength == 0
    requires WalkInvariant(r, entries, i, fuel, tiles, issued, chunks, chunkStart, chunkEnd)
    requires PlanInvariant(r, entries, i, fuel, issued, chunks)
    ensures WalkInvariant(r, entries, i + 1, fuel, tiles', issued', chunks', chunkStart', chunkEnd')
    ensures PlanInvariant(r, entries, i + 1, fuel, issued', chunks')
    decreases fuel, 1
  {
    var entry := entries[i];
    WalkStep(r, entries, i, fuel);
    assert Tiles(r, entries[..i + 1], fuel) == tiles + DirectTiles(r, chunks) + EntryTiles(r, entry, fuel);
    assert RunEntries(r, entries[..i + 1], fuel) == Flatten(issued) + chunks + EntryRunEntries(r, entry, fuel);
    var flushed, flushIssued := FlushAndDescend(r, chunks, chunkStart, chunkEnd, entry, fuel);
    PlanAfterPointer(r, entries, i, fuel, issued, chunks, flushIssued);
    chunks', chunkStart', chunkEnd' := [], LongMax, LongMin;
    assert !Windowed(r, entries) by {
      assert entries[i].runLength == 0;
    }
    tiles', issued' := tiles + flushed, issued + flushIssued;
    AllValidAppend(r, issued, flushIssued);
    FlattenAppend(issued, flushIssued);
    StepCompose(tiles, DirectTiles(r, chunks), flushed, DirectTiles(r, chunks'), EntryTiles(r, entry, fuel));
    StepCompose(Flatten(issued), chunks, Flatten(flushIssued), chunks', EntryRunEntries(r, entry, fuel));
  }

  /** A run entry of the loop of `forEachTile`: join or restart the pending
      chunk. */
  method VisitRun(r: Reader, entries: seq<Entry>, i: int, ghost fuel: nat, tiles: seq<Tile>, issued: seq<ChunkRead>,
                  chunks: seq<Entry>, chunkStart: int, chunkEnd: int)
    returns (tiles': seq<Tile>, issued': seq<ChunkRead>, chunks': seq<Entry>, chunkStart': int, chunkEnd': int)
    requires Enumerable(r, entries, fuel) && 0 <= i < |entries| && entries[i].runLength > 0
    requires WalkInvariant(r, entries, i, fuel, tiles, issued, chunks, chunkStart, chunkEnd)
    requires PlanInvariant(r, entries, i, fuel, issued, chunks)
    ensures WalkInvariant(r, entries, i + 1, fuel, tiles', issued', chunks', chunkStart', chunkEnd')
    ensures PlanInvariant(r, entries, i + 1, fuel, issued', chunks')
  {
    var entry := entries[i];
    WalkStep(r, entries, i, fuel);
    assert Tiles(r, entries[..i + 1], fuel) == tiles + DirectTiles(r, chunks) + EntryTiles(r, entry, fuel);
    assert RunEntries(r, entries[..i + 1], fuel) == Flatten(issued) + chunks + EntryRunEntries(r, entry, fuel);
    if Windowed(r, entries) {
      SpanMonotone(r, entries, i + 1);
      assert entries[..i + 1] == chunks + [entry];
      PendingSnoc(r, chunks, entry);
    }
    var flushed, flushIssued;
    chunks', chunkStart', chunkEnd', flushed, flushIssued := AddRunEntry(r, chunks, chunkStart, chunkEnd, entry);
    PlanAfterRun(r, entries, i, fuel, issued, chunks, chunkStart, chunkEnd, chunks', flushIssued);
    tiles', issued' := tiles + flushed, issued + flushIssued;
    AllValidAppend(r, issued, flushIssued);
    FlattenAppend(issued, flushIssued);
    StepCompose(tiles, DirectTiles(r, chunks), flushed, DirectTiles(r, chunks'), EntryTiles(r, entry, fuel));
    StepCompose(Flatten(issued), chunks, Flatten(flushIssued), chunks', EntryRunEntries(r, entry, fuel));
  }

  /** One iteration of the loop of `forEachTile`: a pointer entry flushes and
      descends, a run entry joins or restarts the pending chunk. */
  method VisitEntry(r: Reader, entries: seq<Entry>, i: int, ghost fuel: nat, tiles: seq<Tile>, issued: seq<ChunkRead>,
                    chunks: seq<Entry>, chunkStart: int, chunkEnd: int)
    returns (tiles': seq<Tile>, issued': seq<ChunkRead>, chunks': seq<Entry>, chunkStart': int, chunkEnd': int)
    requires Enumerable(r, entries, fuel) && 0 <= i < |entries|
    requires WalkInvariant(r, entries, i, fuel, tiles, issued, chunks, chunkStart, chunkEnd)
    requires PlanInvariant(r, entries, i, fuel, issued, chunks)
    ensures WalkInvariant(r, entries, i + 1, fuel, tiles', issued', chunks', chunkStart', chunkEnd')
    ensures PlanInvariant(r, entries, i + 1, fuel, issued', chunks')
    decreases fuel, 2
  {
    if entries[i].runLength == 0 {
      tiles', issued', chunks', chunkStart', chunkEnd' := VisitPointer(r, entries, i, fuel, tiles, issued, chunks, chunkStart, chunkEnd);
    } else {
      tiles', issued', chunks', chunkStart', chunkEnd' := VisitRun(r, entries, i, fuel, tiles, issued, chunks, chunkStart, chunkEnd);
    }
  }

  /** `forEachTile(entries, consumer)`: `tiles` is the sequence handed to the
      consumer and `issued` the chunk reads performed, in order. Pointer
      entries flush the pending chunk before their leaf directory is walked,
      and a last flush follows the loop, so the reads are exactly the greedy
      chunking of each pointer-free block of run entries (`Chunked`): no
      read holds entries from both sides of a pointer entry. */
  method ForEachTile(r: Reader, entries: seq<Entry>, ghost fuel: nat) returns (tiles: seq<Tile>, issued: seq<ChunkRead>)
    requires Enumerable(r, entries, fuel)
    ensures tiles == Tiles(r, entries, fuel)
    ensures AllValid(r, issued)
    ensures Flatten(issued) == RunEntries(r, entries, fuel)
    ensures Windowed(r, entries) ==> |issued| == 1
    ensures issued == Chunked(r, entries, fuel)
    decreases fuel, 3
  {
    var chunkStart: int := LongMax;
    var chunkEnd: int := LongMin;
    var chunks: seq<Entry> := [];
    tiles, issued := [], [];
    assert entries[..0] == [];
    for i := 0 to |entries|
      invariant WalkInvariant(r, entries, i, fuel, tiles, issued, chunks, chunkStart, chunkEnd)
      invariant PlanInvariant(r, entries, i, fuel, issued, chunks)
    {
      tiles, issued, chunks, chunkStart, chunkEnd := VisitEntry(r, entries, i, fuel, tiles, issued, chunks, chunkStart, chunkEnd);
    }
    assert entries[..|entries|] == entries;
    if chunks != [] {
      SpanCovers(r, chunks);
    }
    ghost var issued0 := issued;
    var flushed, flushIssued := FlushChunks(r, chunks, chunkStart, chunkEnd);
    FlushRecorded(r, chunks, chunkStart, chunkEnd, flushIssued);
    tiles, issued := tiles + flushed, issued + flushIssued;
    AllValidAppend(r, issued0, flushIssued);
    FlattenAppend(issued0, flushIssued);
    PlanClose(r, SplitOf(r, entries, fuel).closed, SplitOf(r, entries, fuel).open);
  }

  /** `forEachTile(consumer)`: the walk from the root directory hands out
      exactly the archive's tile enumeration, through the reference reads. */
  method ForEachArchiveTile(r: Reader, ghost fuel: nat) returns (tiles: seq<Tile>, issued: seq<ChunkRead>)
    requires Enumerable(r, RootDir(r), fuel)
    ensures tiles == Tiles(r, RootDir(r), fuel)
    ensures CoordsOf(tiles) == TileCoords(r, RootDir(r), fuel)
    ensures AllValid(r, issued)
    ensures Flatten(issued) == RunEntries(r, RootDir(r), fuel)
    ensures issued == Chunked(r, RootDir(r), fuel)
  {
    tiles, issued := ForEachTile(r, ReadDir(r, RootRange(r)), fuel);
    CoordsMatchTiles(r, RootDir(r), fuel);
  }
}

=== FILE: consistency.dfy ===
/** The bulk enumeration and the single-tile lookup agree on a well-formed
    directory tree: every tile `getTiles` hands out is what `getTile`
    returns for its coordinate. */
module Consistency {
  import opened PmtilesTypes
  import opened Archive
  import opened DirectorySearch
  import opened TileLookup
  import opened Enumeration

  /** The space-filling curve: decoding an id in `int` range and encoding
      the coordinate gives the id back. */
  ghost predicate CurveRoundTrip(c: Codecs) {
    forall id: int :: 0 <= id <= IntMax ==> c.encode(c.decode(id)) == id
  }

  /** `dir` is a well-formed directory for the ids in `[lo, hi)`: its entries
      ascend, each run ends at or before the next entry, and each pointer
      entry's leaf directory is well-formed for the ids from the pointer's id
      up to the next entry, with at most `fuel` levels below. */
  predicate WellFormed(r: Reader, dir: seq<Entry>, lo: nat, hi: nat, fuel: nat)
    decreases fuel, |dir|
  {
    if |dir| == 0 then true
    else
      var e := dir[|dir| - 1];
      && lo <= e.tileId
      && (if e.runLength == 0 then e.tileId < hi && fuel > 0 && WellFormed(r, LeafDir(r, e), e.tileId, hi, fuel - 1)
          else e.tileId + e.runLength <= hi)
      && WellFormed(r, dir[..|dir| - 1], lo, e.tileId, fuel)
  }

  /** `dir` is well-formed for some range of ids. */
  ghost predicate WellFormedSomewhere(r: Reader, dir: seq<Entry>, fuel: nat) {
    exists lo, hi :: WellFormed(r, dir, lo, hi, fuel)
  }

  /** A well-formed directory is sorted and its ids lie in its range, so the
      binary search agrees with the reference scan on it. */
  lemma {:induction false} WellFormedSorted(r: Reader, dir: seq<Entry>, lo: nat, hi: nat, fuel: nat)
    requires WellFormed(r, dir, lo, hi, fuel)
    ensures Sorted(dir)
    ensures forall k :: 0 <= k < |dir| ==> lo <= dir[k].tileId < hi
    decreases |dir|
  {
    if |dir| > 0 {
      var p := dir[..|dir| - 1];
      WellFormedSorted(r, p, lo, dir[|dir| - 1].tileId, fuel);
      assert forall k :: 0 <= k < |p| ==> dir[k] == p[k];
    }
  }

  /** Each pointer entry of a well-formed directory leads to a well-formed
      leaf directory one level down. */
  lemma {:induction false} PointerLeafWellFormed(r: Reader, dir: seq<Entry>, lo: nat, hi: nat, fuel: nat, e: Entry)
    requires WellFormed(r, dir, lo, hi, fuel)
    requires e in dir && e.runLength == 0
    ensures fuel > 0 && WellFormedSomewhere(r, LeafDir(r, e), fuel - 1)
    decreases |dir|
  {
    var last := dir[|dir| - 1];
    if e == last {
      assert WellFormed(r, LeafDir(r, e), e.tileId, hi, fuel - 1);
    } else {
      var p := dir[..|dir| - 1];
      assert e in p by {
        var k :| 0 <= k < |dir| && dir[k] == e;
        assert k < |dir| - 1 && p[k] == e;
      }
      PointerLeafWellFormed(r, p, lo, last.tileId, fuel, e);
    }
  }

  /** Every directory a lookup walks through, starting from a well-formed
      root, is well-formed, and the walk goes no deeper than the tree. */
  lemma {:induction false} VisitedWellFormed(r: Reader, visited: seq<Range>, lo: nat, hi: nat, fuel: nat, k: int)
    requires 1 <= |visited| && visited[0] == RootRange(r) && Chained(r, visited)
    requires WellFormed(r, RootDir(r), lo, hi, fuel)
    requires 0 <= k < |visited|
    ensures k <= fuel
    ensures WellFormedSomewhere(r, ReadDir(r, visited[k]), fuel - k)
  {
    if k > 0 {
      VisitedWellFormed(r, visited, lo, hi, fuel, k - 1);
      var lo', hi' :| WellFormed(r, ReadDir(r, visited[k - 1]), lo', hi', fuel - (k - 1));
      assert PointsTo(r, visited[k - 1], visited[k]);
      var e :| e in ReadDir(r, visited[k - 1]) && e.runLength == 0 && visited[k] == LeafRange(r, e);
      PointerLeafWellFormed(r, ReadDir(r, visited[k - 1]), lo', hi', fuel - (k - 1), e);
    }
  }

  /** On a well-formed archive every directory a `getTile` walk visits is
      sorted, so `getTile` returns the reference answer. */
  lemma VisitedSorted(r: Reader, visited: seq<Range>, lo: nat, hi: nat, fuel: nat)
    requires 1 <= |visited| && visited[0] == RootRange(r) && Chained(r, visited)
    requires WellFormed(r, RootDir(r), lo, hi, fuel)
    ensures AllSorted(r, visited)
  {
    forall k | 0 <= k < |visited|
      ensures Sorted(ReadDir(r, visited[k]))
    {
      VisitedWellFormed(r, visited, lo, hi, fuel, k);
      var lo', hi' :| WellFormed(r, ReadDir(r, visited[k]), lo', hi', fuel - k);
      WellFormedSorted(r, ReadDir(r, visited[k]), lo', hi', fuel - k);
    }
  }

  /** Resolution only consults the entries at or below the id, so dropping a
      last entry above the id changes nothing. */
  lemma ResolveInPrefix(r: Reader, dir: seq<Entry>, tileId: nat, levels: nat)
    requires 0 < |dir| && tileId < dir[|dir| - 1].tileId
    ensures Resolve(r, dir, tileId, levels) == Resolve(r, dir[..|dir| - 1], tileId, levels)
  {
  }

  /** A tile of the last entry's run resolves, from the directory, to that
      run's payload. */
  lemma LastRunResolves(r: Reader, dir: seq<Entry>, levels: nat, t: Tile)
    requires CurveRoundTrip(r.codecs) && 0 < |dir| && 0 < levels
    requires dir[|dir| - 1].runLength > 0 && RunFits(r, dir[|dir| - 1])
    requires t in RunTiles(r, dir[|dir| - 1], Payload(r, dir[|dir| - 1]))
    ensures dir[|dir| - 1].tileId <= r.codecs.encode(t.coord) < dir[|dir| - 1].tileId + dir[|dir| - 1].runLength
    ensures Resolve(r, dir, r.codecs.encode(t.coord), levels) == Some(t.bytes)
  {
    var e := dir[|dir| - 1];
    var run := RunTiles(r, e, Payload(r, e));
    var i :| 0 <= i < |run| && run[i] == t;
    assert IntCast(e.tileId + i) == e.tileId + i;
    var id := r.codecs.encode(t.coord);
    assert id == e.tileId + i;
    assert LastAtOrBelow(dir, id) == |dir| - 1;
  }

  /** An id at or past the last entry, when that entry is a pointer, is
      resolved in the pointer's leaf directory. */
  lemma LastPointerResolves(r: Reader, dir: seq<Entry>, id: nat, levels: nat)
    requires 0 < |dir| && 0 < levels
    requires dir[|dir| - 1].runLength == 0 && dir[|dir| - 1].tileId <= id
    ensures Resolve(r, dir, id, levels) == Resolve(r, LeafDir(r, dir[|dir| - 1]), id, levels - 1)
  {
    assert LastAtOrBelow(dir, id) == |dir| - 1;
  }

  /** Every enumerated tile of a well-formed directory has an id in the
      directory's range, and resolving that id from the directory with more
      levels than the tree is deep yields the tile's bytes. */
  lemma {:induction false} TileResolves(r: Reader, dir: seq<Entry>, lo: nat, hi: nat, fuel: nat, levels: nat, t: Tile)
    requires CurveRoundTrip(r.codecs)
    requires Enumerable(r, dir, fuel) && WellFormed(r, dir, lo, hi, fuel) && fuel < levels
    requires t in Tiles(r, dir, fuel)
    ensures lo <= r.codecs.encode(t.coord) < hi
    ensures Resolve(r, dir, r.codecs.encode(t.coord), levels) == Some(t.bytes)
    decreases fuel, |dir|
  {
    var id := r.codecs.encode(t.coord);
    EnumerablePrefix(r, dir, fuel);
    var p := dir[..|dir| - 1];
    var e := dir[|dir| - 1];
    if t in Tiles(r, p, fuel) {
      TileResolves(r, p, lo, e.tileId, fuel, levels, t);
      ResolveInPrefix(r, dir, id, levels);
    } else {
      assert t in EntryTiles(r, e, fuel);
      if e.runLength == 0 {
        TileResolves(r, LeafDir(r, e), e.tileId, hi, fuel - 1, levels - 1, t);
        LastPointerResolves(r, dir, id, levels);
      } else {
        LastRunResolves(r, dir, levels, t);
      }
    }
  }

  /** `getTiles` and `getTile` agree: on a well-formed archive whose tree is
      at most three leaf levels deep, the lookup of every enumerated tile's
      coordinate returns that tile's bytes. */
  lemma EnumeratedTilesFound(r: Reader, hi: nat, fuel: nat, t: Tile)
    requires CurveRoundTrip(r.codecs) && fuel < MaxDepth
    requires Enumerable(r, RootDir(r), fuel) && WellFormed(r, RootDir(r), 0, hi, fuel)
    requires t in Tiles(r, RootDir(r), fuel)
    ensures LookupTile(r, r.codecs.encode(t.coord)) == Some(t.bytes)
  {
    TileResolves(r, RootDir(r), 0, hi, fuel, MaxDepth, t);
  }
}

=== FILE: enumeration.dfy ===
/** Bulk enumeration: the directory tree flattened in directory order, each
    run entry expanded into its tiles and each pointer entry into the
    enumeration of its leaf directory. */
module Enumeration {
  import opened PmtilesTypes
  import opened Archive

  /** The ids of a run fit a Java `int` (the source casts them, which limits
      enumeration to zoom 15 and below), and its payload ends at or below
      `Long.MAX_VALUE`. */
  predicate RunFits(r: Reader, e: Entry) {
    && e.tileId + e.runLength <= IntMax
    && r.header.tileDataOffset + e.offset + e.length <= LongMax
  }

  /** The entry can be enumerated with at most `fuel` further levels of leaf
      directories below it. */
  predicate EntryEnumerable(r: Reader, e: Entry, fuel: nat)
    decreases fuel, 0
  {
    if e.runLength == 0 then fuel > 0 && Enumerable(r, LeafDir(r, e), fuel - 1)
    else RunFits(r, e)
  }

  predicate Enumerable(r: Reader, dir: seq<Entry>, fuel: nat)
    decreases fuel, 1
  {
    forall i :: 0 <= i < |dir| ==> EntryEnumerable(r, dir[i], fuel)
  }

  lemma EnumerableSplit(r: Reader, a: seq<Entry>, b: seq<Entry>, fuel: nat)
    ensures Enumerable(r, a + b, fuel) <==> Enumerable(r, a, fuel) && Enumerable(r, b, fuel)
  {
    var ab := a + b;
    assert forall i :: 0 <= i < |a| ==> ab[i] == a[i];
    assert forall i :: 0 <= i < |b| ==> ab[|a| + i] == b[i];
  }

  lemma EnumerablePrefix(r: Reader, dir: seq<Entry>, fuel: nat)
    requires |dir| > 0 && Enumerable(r, dir, fuel)
    ensures Enumerable(r, dir[..|dir| - 1], fuel)
    ensures EntryEnumerable(r, dir[|dir| - 1], fuel)
  {
  }

  lemma EnumerablePrefixes(r: Reader, dir: seq<Entry>, i: int, fuel: nat)
    requires Enumerable(r, dir, fuel) && 0 <= i <= |dir|
    ensures Enumerable(r, dir[..i], fuel)
  {
  }

  /** `getTiles`: each run entry's payload is read once and handed out
      `runLength` times; each pointer entry is replaced by the enumeration of
      its leaf directory. */
  function Tiles(r: Reader, dir: seq<Entry>, fuel: nat): seq<Tile>
    requires Enumerable(r, dir, fuel)
    decreases fuel, |dir|, 1
  {
    if |dir| == 0 then []
    else
      EnumerablePrefix(r, dir, fuel);
      Tiles(r, dir[..|dir| - 1], fuel) + EntryTiles(r, dir[|dir| - 1], fuel)
  }

  function EntryTiles(r: Reader, e: Entry, fuel: nat): seq<Tile>
    requires EntryEnumerable(r, e, fuel)
    decreases fuel, 0, 0
  {
    if e.runLength == 0 then Tiles(r, LeafDir(r, e), fuel - 1)
    else RunTiles(r, e, Payload(r, e))
  }

  /** `getTileCoords`: the same walk, producing only coordinates. */
  function TileCoords(r: Reader, dir: seq<Entry>, fuel: nat): seq<TileCoord>
    requires Enumerable(r, dir, fuel)
    decreases fuel, |dir|, 1
  {
    if |dir| == 0 then []
    else
      EnumerablePrefix(r, dir, fuel);
      TileCoords(r, dir[..|dir| - 1], fuel) + EntryCoords(r, dir[|dir| - 1], fuel)
  }

  function EntryCoords(r: Reader, e: Entry, fuel: nat): seq<TileCoord>
    requires EntryEnumerable(r, e, fuel)
    decreases fuel, 0, 0
  {
    if e.runLength == 0 then TileCoords(r, LeafDir(r, e), fuel - 1)
    else seq(e.runLength, i requires 0 <= i < e.runLength => r.codecs.decode(IntCast(e.tileId) + i))
  }

  /** The run entries of the tree, in the order the walk meets them. */
  function RunEntries(r: Reader, dir: seq<Entry>, fuel: nat): seq<Entry>
    requires Enumerable(r, dir, fuel)
    decreases fuel, |dir|, 1
  {
    if |dir| == 0 then []
    else
      EnumerablePrefix(r, dir, fuel);
      RunEntries(r, dir[..|dir| - 1], fuel) + EntryRunEntries(r, dir[|dir| - 1], fuel)
  }

  function EntryRunEntries(r: Reader, e: Entry, fuel: nat): seq<Entry>
    requires EntryEnumerable(r, e, fuel)
    decreases fuel, 0, 0
  {
    if e.runLength == 0 then RunEntries(r, LeafDir(r, e), fuel - 1) else [e]
  }

  function CoordsOf(ts: seq<Tile>): (cs: seq<TileCoord>)
    ensures |cs| == |ts|
    ensures forall k :: 0 <= k < |ts| ==> cs[k] == ts[k].coord
  {
    seq(|ts|, k requires 0 <= k < |ts| => ts[k].coord)
  }

  /** Enumerating a concatenation enumerates the parts one after the other:
      every entry is expanded exactly once, in directory order. */
  lemma {:induction false} TilesAppend(r: Reader, a: seq<Entry>, b: seq<Entry>, fuel: nat)
    requires Enumerable(r, a + b, fuel)
    ensures Enumerable(r, a, fuel) && Enumerable(r, b, fuel)
    ensures Tiles(r, a + b, fuel) == Tiles(r, a, fuel) + Tiles(r, b, fuel)
    decreases |b|
  {
    EnumerableSplit(r, a, b, fuel);
    if |b| > 0 {
      var b' := b[..|b| - 1];
      assert (a + b)[..|a + b| - 1] == a + b';
      assert (a + b)[|a + b| - 1] == b[|b| - 1];
      EnumerablePrefix(r, b, fuel);
      TilesAppend(r, a, b', fuel);
    } else {
      assert a + b == a;
    }
  }

  /** The tiles contributed by entry `k` sit between those of the entries
      before it and those of the entries after it. */
  lemma TilesSplit(r: Reader, dir: seq<Entry>, k: int, fuel: nat)
    requires Enumerable(r, dir, fuel) && 0 <= k < |dir|
    ensures EntryEnumerable(r, dir[k], fuel)
    ensures Enumerable(r, dir[..k], fuel) && Enumerable(r, dir[k + 1..], fuel)
    ensures Tiles(r, dir, fuel) == Tiles(r, dir[..k], fuel) + EntryTiles(r, dir[k], fuel) + Tiles(r, dir[k + 1..], fuel)
  {
    assert dir == dir[..k + 1] + dir[k + 1..];
    TilesAppend(r, dir[..k + 1], dir[k + 1..], fuel);
    assert dir[..k + 1][..k] == dir[..k];
    EnumerablePrefix(r, dir[..k + 1], fuel);
  }

  /** Every id of every run entry of a directory is enumerated, with that
      run's payload. */
  lemma RunTileEnumerated(r: Reader, dir: seq<Entry>, k: int, i: nat, fuel: nat)
    requires Enumerable(r, dir, fuel) && 0 <= k < |dir|
    requires dir[k].runLength > 0 && i < dir[k].runLength
    ensures Tile(r.codecs.decode(dir[k].tileId + i), Payload(r, dir[k])) in Tiles(r, dir, fuel)
  {
    TilesSplit(r, dir, k, fuel);
    var run := EntryTiles(r, dir[k], fuel);
    assert run[i] == Tile(r.codecs.decode(dir[k].tileId + i), Payload(r, dir[k]));
    var before := Tiles(r, dir[..k], fuel);
    assert Tiles(r, dir, fuel)[|before| + i] == run[i];
  }

  /** For a run that fits an `int`, narrowing the first id and then adding
      (as `getTileCoords` does) decodes the same ids as adding and then
      narrowing (as `getTiles` does). */
  lemma RunCoordsMatch(r: Reader, e: Entry, fuel: nat)
    requires e.runLength > 0 && EntryEnumerable(r, e, fuel)
    ensures EntryCoords(r, e, fuel) == CoordsOf(EntryTiles(r, e, fuel))
  {
    assert IntCast(e.tileId) == e.tileId;
  }

  /** The coordinate enumeration and the tile enumeration agree position by
      position: same coordinates, same count, same order. */
  lemma {:induction false} CoordsMatchTiles(r: Reader, dir: seq<Entry>, fuel: nat)
    requires Enumerable(r, dir, fuel)
    ensures TileCoords(r, dir, fuel) == CoordsOf(Tiles(r, dir, fuel))
    decreases fuel, |dir|
  {
    if |dir| > 0 {
      EnumerablePrefix(r, dir, fuel);
      var e := dir[|dir| - 1];
      CoordsMatchTiles(r, dir[..|dir| - 1], fuel);
      if e.runLength == 0 {
        CoordsMatchTiles(r, LeafDir(r, e), fuel - 1);
      } else {
        RunCoordsMatch(r, e, fuel);
      }
      var a := Tiles(r, dir[..|dir| - 1], fuel);
      var b := EntryTiles(r, e, fuel);
      assert CoordsOf(a + b) == CoordsOf(a) + CoordsOf(b);
    }
  }

  /** One step of the walk in directory order: the entry at `i` extends the
      enumeration of the entries before it. */
  lemma WalkStep(r: Reader, dir: seq<Entry>, i: int, fuel: nat)
    requires Enumerable(r, dir, fuel) && 0 <= i < |dir|
    ensures Enumerable(r, dir[..i], fuel) && Enumerable(r, dir[..i + 1], fuel)
    ensures EntryEnumerable(r, dir[i], fuel)
    ensures Tiles(r, dir[..i + 1], fuel) == Tiles(r, dir[..i], fuel) + EntryTiles(r, dir[i], fuel)
    ensures RunEntries(r, dir[..i + 1], fuel) == RunEntries(r, dir[..i], fuel) + EntryRunEntries(r, dir[i], fuel)
  {
    assert dir == dir[..i + 1] + dir[i + 1..];
    EnumerableSplit(r, dir[..i + 1], dir[i + 1..], fuel);
    EnumerablePrefix(r, dir[..i + 1], fuel);
    assert dir[..i + 1][..i] == dir[..i];
  }
}

=== FILE: find_tile.dfy ===
/** Finding the entry that answers a tile id in one directory. */
module DirectorySearch {
  import opened PmtilesTypes

  /** Directories are sorted strictly ascending by tile id. */
  predicate Sorted(es: seq<Entry>) {
    forall i, j :: 0 <= i < j < |es| ==> es[i].tileId < es[j].tileId
  }

  /** `n` is the predecessor slot of `target`: the last entry whose id is at
      most `target`. */
  predicate IsPredecessor(es: seq<Entry>, n: int, target: nat) {
    && 0 <= n < |es|
    && es[n].tileId <= target
    && (n + 1 == |es| || target < es[n + 1].tileId)
  }

  /** Linear scan from the back for the last entry whose id is at most
      `target`; on a sorted directory that is the predecessor. */
  function LastAtOrBelow(es: seq<Entry>, target: nat): (n: int)
    ensures -1 <= n < |es|
    ensures 0 <= n ==> es[n].tileId <= target
    ensures forall j :: n < j < |es| ==> target < es[j].tileId
  {
    if |es| == 0 then -1
    else if es[|es| - 1].tileId <= target then |es| - 1
    else LastAtOrBelow(es[..|es| - 1], target)
  }

  /** The reference answer: the scanned predecessor if it answers `target`
      (an exact match always does), otherwise nothing. */
  function FindTileSpec(es: seq<Entry>, target: nat): Option<Entry> {
    var n := LastAtOrBelow(es, target);
    if n < 0 then None
    else if es[n].Answers(target) then Some(es[n])
    else None
  }

  /** On a sorted directory the scan lands on the unique entry below or at
      `target` that is followed by a larger one. */
  lemma {:induction false} PredecessorUnique(es: seq<Entry>, target: nat, n: int)
    requires Sorted(es)
    requires -1 <= n < |es|
    requires forall i :: 0 <= i <= n ==> es[i].tileId <= target
    requires forall j :: n < j < |es| ==> target < es[j].tileId
    ensures LastAtOrBelow(es, target) == n
    decreases |es|
  {
    if n < |es| - 1 {
      var p := es[..|es| - 1];
      assert forall i :: 0 <= i < |p| ==> p[i] == es[i];
      PredecessorUnique(p, target, n);
    }
  }

  /** An exact match is always the answer. */
  lemma FindExact(es: seq<Entry>, target: nat, k: int)
    requires Sorted(es)
    requires 0 <= k < |es| && es[k].tileId == target
    ensures FindTileSpec(es, target) == Some(es[k])
  {
    PredecessorUnique(es, target, k);
  }

  /** Full characterisation on a sorted directory: the answer is an entry
      exactly when that entry is the predecessor of `target` and is either a
      pointer entry or a run that reaches `target`. */
  lemma FindCharacterization(es: seq<Entry>, target: nat, e: Entry)
    requires Sorted(es)
    ensures FindTileSpec(es, target) == Some(e) <==>
      exists n :: IsPredecessor(es, n, target) && es[n] == e && es[n].Answers(target)
  {
    var m := LastAtOrBelow(es, target);
    if exists n :: IsPredecessor(es, n, target) && es[n] == e && es[n].Answers(target) {
      var n :| IsPredecessor(es, n, target) && es[n] == e && es[n].Answers(target);
      PredecessorUnique(es, target, n);
    }
  }

  /** The three ways to get no answer: an empty directory, a target before
      the first entry, and a target past the run of a run-entry predecessor. */
  lemma FindAbsent(es: seq<Entry>, target: nat)
    requires Sorted(es)
    ensures |es| == 0 ==> FindTileSpec(es, target) == None
    ensures 0 < |es| && target < es[0].tileId ==> FindTileSpec(es, target) == None
    ensures forall n ::
              (IsPredecessor(es, n, target) && es[n].runLength > 0 && es[n].tileId + es[n].runLength <= target)
              ==> FindTileSpec(es, target) == None
  {
    if 0 < |es| && target < es[0].tileId {
      PredecessorUnique(es, target, -1);
    }
    forall n | IsPredecessor(es, n, target) && es[n].runLength > 0 && es[n].tileId + es[n].runLength <= target
      ensures FindTileSpec(es, target) == None
    {
      PredecessorUnique(es, target, n);
    }
  }

  /** Binary search over the directory, as `findTile` does it. It needs no
      precondition; on a sorted directory it agrees with the linear scan. */
  method FindTile(es: seq<Entry>, target: nat) returns (r: Option<Entry>)
    ensures r.Some? ==> r.value in es
    ensures Sorted(es) ==> r == FindTileSpec(es, target)
  {
    var m := 0;
    var n := |es| - 1;
    while m <= n
      invariant 0 <= m <= n + 1 <= |es|
      invariant Sorted(es) ==> forall i :: 0 <= i < m ==> es[i].tileId < target
      invariant Sorted(es) ==> forall j :: n < j < |es| ==> target < es[j].tileId
      decreases n - m
    {
      var k := (n + m) / 2;
      if target > es[k].tileId {
        m := k + 1;
      } else if target < es[k].tileId {
        n := k - 1;
      } else {
        if Sorted(es) {
          FindExact(es, target, k);
        }
        return Some(es[k]);
      }
    }
    if Sorted(es) {
      PredecessorUnique(es, target, n);
    }
    if n >= 0 && es[n].Answers(target) {
      return Some(es[n]);
    }
    return None;
  }
}

=== FILE: lookup.dfy ===
/** Single-tile lookup: a depth-bounded walk from the root directory through
    leaf directories to a tile payload. */
module TileLookup {
  import opened PmtilesTypes
  import opened Archive
  import opened DirectorySearch
  import Cache

  /** The root directory plus at most three levels of leaf directories. */
  const MaxDepth: nat := 4

  /** Reference descent: the payload that answers `tileId` starting from
      directory `dir`, consulting at most `levels` directories. */
  function Resolve(r: Reader, dir: seq<Entry>, tileId: nat, levels: nat): Option<Bytes>
    decreases levels
  {
    if levels == 0 then None
    else
      match FindTileSpec(dir, tileId)
      case None => None
      case Some(e) =>
        if e.runLength > 0 then Some(Payload(r, e))
        else Resolve(r, LeafDir(r, e), tileId, levels - 1)
  }

  /** The reference answer for one tile id of the archive. */
  function LookupTile(r: Reader, tileId: nat): Option<Bytes> {
    Resolve(r, RootDir(r), tileId, MaxDepth)
  }

  /** The loaders the directory cache and the tile cache memoise. */
  function DirLoader(r: Reader): Range -> seq<Entry> {
    range => ReadDir(r, range)
  }

  function TileLoader(r: Reader): Range -> Bytes {
    range => ReadRange(r.source, range)
  }

  ghost predicate AllSorted(r: Reader, visited: seq<Range>) {
    forall k :: 0 <= k < |visited| ==> Sorted(ReadDir(r, visited[k]))
  }

  /** `next` is the leaf directory of some pointer entry of the directory at `range`. */
  ghost predicate PointsTo(r: Reader, range: Range, next: Range) {
    exists e :: e in ReadDir(r, range) && e.runLength == 0 && next == LeafRange(r, e)
  }

  /** Each fetched directory after the first was reached through a pointer
      entry of the one before it. */
  ghost predicate Chained(r: Reader, visited: seq<Range>) {
    forall k :: 0 <= k < |visited| - 1 ==> PointsTo(r, visited[k], visited[k + 1])
  }

  lemma VisitExtends(r: Reader, before: seq<Range>, range: Range)
    requires Chained(r, before)
    requires |before| > 0 ==> PointsTo(r, before[|before| - 1], range)
    ensures Chained(r, before + [range])
    ensures AllSorted(r, before + [range]) ==> AllSorted(r, before) && Sorted(ReadDir(r, range))
  {
    var after := before + [range];
    assert forall k :: 0 <= k < |before| ==> after[k] == before[k];
    assert after[|before|] == range;
  }

  /** `getTile`: encode the coordinate, then walk at most four directories
      through the directory cache; a run entry ends the walk with its payload
      (through the tile cache), a pointer entry moves to its leaf directory.
      `visited` lists the directory ranges fetched, in order. */
  method GetTile(r: Reader, dirCache: map<Range, seq<Entry>>, tileCache: map<Range, Bytes>, coord: TileCoord)
    returns (tile: Option<Bytes>, dirCache': map<Range, seq<Entry>>, tileCache': map<Range, Bytes>, visited: seq<Range>)
    requires Cache.Consistent(dirCache, DirLoader(r)) && Cache.Consistent(tileCache, TileLoader(r))
    ensures Cache.Consistent(dirCache', DirLoader(r)) && Cache.Consistent(tileCache', TileLoader(r))
    ensures 1 <= |visited| <= MaxDepth && visited[0] == RootRange(r)
    ensures Chained(r, visited)
    ensures tile.Some? ==>
              exists e :: e in ReadDir(r, visited[|visited| - 1]) && e.runLength > 0 && tile.value == Payload(r, e)
    ensures AllSorted(r, visited) ==> tile == LookupTile(r, r.codecs.encode(coord))
  {
    var tileId := r.codecs.encode(coord);
    var dirOffset: nat := r.header.rootDirOffset;
    var dirLength: nat := r.header.rootDirLength;
    dirCache', tileCache', visited := dirCache, tileCache, [];
    for depth := 0 to MaxDepth
      invariant Cache.Consistent(dirCache', DirLoader(r)) && Cache.Consistent(tileCache', TileLoader(r))
      invariant |visited| == depth
      invariant depth == 0 ==> Range(dirOffset, dirLength) == RootRange(r)
      invariant depth > 0 ==> visited[0] == RootRange(r)
      invariant Chained(r, visited)
      invariant depth > 0 ==> PointsTo(r, visited[depth - 1], Range(dirOffset, dirLength))
      invariant AllSorted(r, visited) ==>
                  Resolve(r, ReadDir(r, Range(dirOffset, dirLength)), tileId, MaxDepth - depth) == LookupTile(r, tileId)
    {
      var range := Range(dirOffset, dirLength);
      var fetched := Cache.Get(dirCache', DirLoader(r), range);
      var dir := fetched.0;
      dirCache' := fetched.1;
      assert dir == ReadDir(r, range);
      VisitExtends(r, visited, range);
      visited := visited + [range];
      var entry := FindTile(dir, tileId);
      if entry.Some? {
        if entry.value.runLength > 0 {
          var loaded := Cache.Get(tileCache', TileLoader(r), DataRange(r, entry.value));
          tileCache' := loaded.1;
          tile := Some(loaded.0);
          assert loaded.0 == Payload(r, entry.value);
          return;
        } else {
          dirOffset := r.header.leafDirectoriesOffset + entry.value.offset;
          dirLength := entry.value.length;
          assert PointsTo(r, range, LeafRange(r, entry.value));
        }
      } else {
        tile := None;
        return;
      }
    }
    tile := None;
  }

  /** A small two-level archive: the root (64 bytes at 127) holds one pointer
      entry to a 32-byte leaf directory, which holds the run (5, 100, 50, 3).
      Directories are told apart by their byte length. */
  function ScenarioReader(source: nat -> byte): Reader {
    var header := Header(127, 64, 0, 0, 191, 223, NoCompression, NoCompression, Mvt, 0, 14, 0,
                         Bounds(-180.0, -90.0, 180.0, 90.0), LonLat(0.0, 0.0));
    var parse := (b: Bytes) =>
      if |b| == 64 then [Entry(0, 0, 32, 0)]
      else if |b| == 32 then [Entry(5, 100, 50, 3)]
      else [];
    Reader(source, Codecs(b => b, b => header, parse, c => 0, i => TileCoord(0, 0, 0)), header)
  }

  /** Ids 5, 6 and 7 all resolve to the 50 payload bytes at tile-data offset
      100; id 4 (before the run) and id 8 (past it) are absent. */
  lemma ScenarioLookups(source: nat -> byte)
    ensures var r := ScenarioReader(source);
      && LookupTile(r, 5) == Some(Read(source, 223 + 100, 50))
      && LookupTile(r, 6) == Some(Read(source, 223 + 100, 50))
      && LookupTile(r, 7) == Some(Read(source, 223 + 100, 50))
      && LookupTile(r, 4) == None
      && LookupTile(r, 8) == None
  {
  }
}

=== FILE: metadata.dfy ===
/** `metadata()`: the archive-level metadata record assembled from the header
    and the JSON metadata blob, with the reserved keys pulled out of the
    blob's open key-value map. */
module Metadata {
  import opened PmtilesTypes
  import opened Archive

  /** The archive layer's compression enum. The source spells its third
      constant `UNKNWON`. */
  datatype TileCompression = CompressionNone | CompressionGzip | CompressionUnknwon

  /** The tile format tag; the source has only the MVT one. */
  datatype TileFormat = MvtFormat

  /** The decoded JSON blob: the vector-layer schema in its reserved field and
      every other top-level key in an open map. */
  datatype JsonMetadata<L> = JsonMetadata(vectorLayers: L, otherMetadata: map<string, string>)

  /** The metadata record handed to callers. */
  datatype ArchiveMetadata<L> = ArchiveMetadata(
    name: Option<string>,
    description: Option<string>,
    attribution: Option<string>,
    version: Option<string>,
    archiveType: Option<string>,
    format: Option<TileFormat>,
    bounds: Bounds,
    center: LonLat,
    centerZoom: nat,
    minZoom: nat,
    maxZoom: nat,
    vectorLayers: L,
    others: map<string, string>,
    tileCompression: TileCompression)

  const NameKey: string := "name"
  const DescriptionKey: string := "description"
  const AttributionKey: string := "attribution"
  const VersionKey: string := "version"
  const TypeKey: string := "type"

  /** The keys that become fields of the record instead of staying in the
      residual map. */
  const ReservedKeys: set<string> := {NameKey, DescriptionKey, AttributionKey, VersionKey, TypeKey}

  /** The header's compression back from the archive-level one. */
  function HeaderCompression(t: TileCompression): Compression {
    match t
    case CompressionNone => NoCompression
    case CompressionGzip => Gzip
    case CompressionUnknwon => UnknownCompression
  }

  /** The switch over the header's tile compression: total, and one-to-one
      since `HeaderCompression` undoes it. */
  function ArchiveCompression(c: Compression): (t: TileCompression)
    ensures HeaderCompression(t) == c
  {
    match c
    case Gzip => CompressionGzip
    case NoCompression => CompressionNone
    case UnknownCompression => CompressionUnknwon
  }

  /** Every archive-level compression is the image of a header compression. */
  lemma ArchiveCompressionOnto(t: TileCompression)
    ensures ArchiveCompression(HeaderCompression(t)) == t
  {
  }

  /** The switch over the header's tile type: MVT gets the MVT format, every
      other type (including unknown) gets none. */
  function FormatOf(t: TileType): (f: Option<TileFormat>)
    ensures f.Some? <==> t == Mvt
  {
    match t
    case Mvt => Some(MvtFormat)
    case _ => None
  }

  /** `map.remove(key)`: the value the key had, if any. */
  function Take(m: map<string, string>, key: string): (v: Option<string>)
    ensures v.Some? <==> key in m
    ensures v.Some? ==> m[key] == v.value
  {
    if key in m then Some(m[key]) else None
  }

  /** Assemble the record: reserved keys become fields, the rest stay in the
      residual map, and the remaining fields come from the header. */
  function Reconcile<L>(h: Header, json: JsonMetadata<L>): (md: ArchiveMetadata<L>)
    ensures md.others.Keys == json.otherMetadata.Keys - ReservedKeys
    ensures forall k :: k in md.others ==> md.others[k] == json.otherMetadata[k]
    ensures md.name.Some? <==> NameKey in json.otherMetadata
    ensures md.description.Some? <==> DescriptionKey in json.otherMetadata
    ensures md.attribution.Some? <==> AttributionKey in json.otherMetadata
    ensures md.version.Some? <==> VersionKey in json.otherMetadata
    ensures md.archiveType.Some? <==> TypeKey in json.otherMetadata
    ensures md.vectorLayers == json.vectorLayers
    ensures HeaderCompression(md.tileCompression) == h.tileCompression
    ensures md.format.Some? <==> h.tileType == Mvt
    ensures md.bounds == h.bounds && md.center == h.center
    ensures md.centerZoom == h.centerZoom && md.minZoom == h.minZoom && md.maxZoom == h.maxZoom
  {
    var m := json.otherMetadata;
    ArchiveMetadata(
      Take(m, NameKey),
      Take(m, DescriptionKey),
      Take(m, AttributionKey),
      Take(m, VersionKey),
      Take(m, TypeKey),
      FormatOf(h.tileType),
      h.bounds,
      h.center,
      h.centerZoom,
      h.minZoom,
      h.maxZoom,
      json.vectorLayers,
      m - ReservedKeys,
      ArchiveCompression(h.tileCompression))
  }

  /** Put a taken value back under its key. */
  function PutBack(m: map<string, string>, key: string, v: Option<string>): map<string, string> {
    match v
    case None => m
    case Some(s) => m[key := s]
  }

  /** The JSON key-value map the record was built from: the residual map with
      every extracted reserved value put back under its key. */
  function Restore<L>(md: ArchiveMetadata<L>): map<string, string> {
    PutBack(PutBack(PutBack(PutBack(PutBack(md.others,
      NameKey, md.name), DescriptionKey, md.description), AttributionKey, md.attribution),
      VersionKey, md.version), TypeKey, md.archiveType)
  }

  /** Nothing of the JSON map is lost or altered: the reserved values and the
      residual map together are exactly the original map. */
  lemma ReconcileRestores<L>(h: Header, json: JsonMetadata<L>)
    ensures Restore(Reconcile(h, json)) == json.otherMetadata
  {
  }

  /** The residual map never holds a reserved key, so reconciling a record's
      own residual map again extracts nothing. */
  lemma ReconcileResidual<L>(h: Header, json: JsonMetadata<L>)
    ensures var md := Reconcile(h, json);
      var again := Reconcile(h, JsonMetadata(json.vectorLayers, md.others));
      && again.others == md.others
      && again.name == None && again.description == None && again.attribution == None
      && again.version == None && again.archiveType == None
  {
  }

  /** `getJsonMetadata`: read the metadata range, gunzip it when the header
      says so, and decode it; `None` is the decoder's I/O failure. */
  function JsonMetadataOf<L>(r: Reader, decode: Bytes -> Option<JsonMetadata<L>>): Option<JsonMetadata<L>> {
    decode(Inflate(r, Read(r.source, r.header.jsonMetadataOffset, r.header.jsonMetadataLength)))
  }

  /** `metadata()`: reconcile the decoded blob with the header; a decoding
      failure surfaces as a failure of the whole call. */
  function MetadataOf<L>(r: Reader, decode: Bytes -> Option<JsonMetadata<L>>): (md: Option<ArchiveMetadata<L>>)
    ensures md.Some? <==> JsonMetadataOf(r, decode).Some?
    ensures md.Some? ==> Restore(md.value) == JsonMetadataOf(r, decode).value.otherMetadata
    ensures md.Some? ==> md.value.others.Keys !! ReservedKeys
    ensures md.Some? ==> HeaderCompression(md.value.tileCompression) == r.header.tileCompression
  {
    match JsonMetadataOf(r, decode)
    case None => None
    case Some(json) =>
      ReconcileRestores(r.header, json);
      Some(Reconcile(r.header, json))
  }

  /** `metadata()` reads nothing but the metadata range: two archives with
      the same header and codecs whose bytes agree on that range give the
      same result, whatever the rest of their bytes. */
  lemma MetadataLocal<L>(r: Reader, other: Reader, decode: Bytes -> Option<JsonMetadata<L>>)
    requires other.header == r.header && other.codecs == r.codecs
    requires forall p :: r.header.jsonMetadataOffset <= p < r.header.jsonMetadataOffset + r.header.jsonMetadataLength ==>
               other.source(p) == r.source(p)
    ensures JsonMetadataOf(other, decode) == JsonMetadataOf(r, decode)
    ensures MetadataOf(other, decode) == MetadataOf(r, decode)
  {
    var h := r.header;
    assert Read(other.source, h.jsonMetadataOffset, h.jsonMetadataLength) == Read(r.source, h.jsonMetadataOffset, h.jsonMetadataLength);
  }

  /** A blob with name "Test", a vector-layer schema and one custom key gives
      name "Test" and the residual map {"custom_key": "v"}. */
  lemma ScenarioMetadata<L>(h: Header, layers: L)
    ensures var md := Reconcile(h, JsonMetadata(layers, map["name" := "Test", "custom_key" := "v"]));
      && md.name == Some("Test")
      && md.others == map["custom_key" := "v"]
      && md.vectorLayers == layers
      && md.description == None
  {
  }
}

=== FILE: types.dfy ===
/** The value types the archive reader works with: directory entries, byte
    ranges, the parsed header and the tiles handed to callers. */
module PmtilesTypes {

  newtype byte = b: int | 0 <= b < 256

  type Bytes = seq<byte>

  /** Java's `null` for an absent entry, tile or metadata value. */
  datatype Option<T> = None | Some(value: T)

  /** Largest and least Java `int`; tile ids are cast to `int` during
      enumeration. */
  const IntMax: int := 0x7fff_ffff
  const IntMin: int := -0x8000_0000

  /** Java's narrowing `(int)` of a `long`: keep the low 32 bits and read
      them as a two's-complement `int`. */
  function IntCast(x: int): (n: int)
    ensures IntMin <= n <= IntMax
    ensures n % 0x1_0000_0000 == x % 0x1_0000_0000
    ensures 0 <= x <= IntMax ==> n == x
  {
    var low := x % 0x1_0000_0000;
    if low > IntMax then low - 0x1_0000_0000 else low
  }

  /** One past the largest `int` wraps around to the least one. */
  lemma IntCastWraps()
    ensures IntCast(IntMax + 1) == IntMin
    ensures IntCast(IntMax + 2) == IntMin + 1
  {
  }

  /** Java's `Long.MAX_VALUE` and `Long.MIN_VALUE`, the empty-chunk sentinels. */
  const LongMax: int := 0x7fff_ffff_ffff_ffff
  const LongMin: int := -0x8000_0000_0000_0000

  /** Length of the fixed header block at byte 0 (PMTiles version 3). */
  const HeaderLength: nat := 127

  /** One row of a directory. A run entry (runLength > 0) stands for the
      tiles tileId .. tileId + runLength - 1, all sharing the payload at
      `offset` in the tile-data section; a pointer entry (runLength == 0)
      locates a leaf directory at `offset` in the leaf-directories section. */
  datatype Entry = Entry(tileId: nat, offset: nat, length: nat, runLength: nat) {

    /** The tie-break applied to the predecessor of `target`: a pointer
        entry answers any later id, a run entry only the ids of its run.
        The difference is a signed one, as in the source's `long` arithmetic. */
    predicate Answers(target: nat) {
      runLength == 0 || target - tileId < runLength
    }
  }

  /** A byte range of the archive; the key of both caches. */
  datatype Range = Range(offset: nat, length: nat)

  datatype Compression = NoCompression | Gzip | UnknownCompression

  datatype TileType = Mvt | OtherTileType | UnknownTileType

  datatype Bounds = Bounds(minLon: real, minLat: real, maxLon: real, maxLat: real)

  datatype LonLat = LonLat(lon: real, lat: real)

  /** The fields of the parsed header that the reader consults. */
  datatype Header = Header(
    rootDirOffset: nat,
    rootDirLength: nat,
    jsonMetadataOffset: nat,
    jsonMetadataLength: nat,
    leafDirectoriesOffset: nat,
    tileDataOffset: nat,
    internalCompression: Compression,
    tileCompression: Compression,
    tileType: TileType,
    minZoom: nat,
    maxZoom: nat,
    centerZoom: nat,
    bounds: Bounds,
    center: LonLat)

  datatype TileCoord = TileCoord(x: int, y: int, z: int)

  /** What the bulk enumeration hands to its consumer. */
  datatype Tile = Tile(coord: TileCoord, bytes: Bytes)
}
